=== FILE: README.md ===
# A Dafny model of the mvast fMRI visual task's timing core

`mvast_fmri_task.py` runs a block-design visual fMRI session: it waits for a
start signal (space bar, a scanner trigger character typed on the keyboard, or
a trigger read from a serial port by a background thread), shows an
instruction screen (a loaded image or rendered text) during the dummy scans,
and then runs five cycles of a
20-second fixation cross followed by a 20-second checkerboard flashing at
8 Hz. Any phase can be cancelled with QUIT or ESC.

This project models the decision procedures of that script once pygame, the
file system and the threads are taken away, and proves what they promise:

| module | models |
|---|---|
| `Events` (`events.dfy`) | pygame events, event batches, phase verdicts, ASCII `str.lower()` |
| `TriggerQueue` (`trigger_queue.dfy`) | `TriggerInputHandler.check_trigger` and the queue the reader thread feeds |
| `StaticPhase` (`static_phase.dfy`) | the polling loop of `show_fixation` and `show_instruction_image` |
| `FlashScheduler` (`flash_scheduler.dfy`) | `show_flashing_checkerboard`: additive flip scheduling and the frame-count check |
| `StartGate` (`start_gate.dfy`) | the event loop of `wait_for_start` |
| `Config` (`config.dfy`) | `DEFAULT_CONFIG` and the normalisation in `load_config` |
| `Session` (`session.dfy`) | the phase sequencing, asset checks and drift warning of `run_task` |
| `FixationCross` (`fixation_cross.dfy`) | the integer geometry of the programmatic fixation cross |

**Time.** Every clock is an integer tick clock with one tick per microsecond.
A loop's `time.perf_counter()` readings are supplied as a sequence, consumed in
call order, and each `pygame.event.get()` consumes one event batch from a second
sequence. With the source's constants, the 8 Hz half period is 62500 ticks and a
20-second phase is 20 000 000 ticks. When the supplied readings or batches run
out while a loop is still polling, the model's verdict is `Pending`. The real
program would go on polling.

**Phases.** A static phase reads its start time and then repeats two steps:
1. Read the clock for the loop test.
2. Read one event batch.

It completes at the first loop test that reaches `start + duration`. The first
batch holding QUIT, or ESC while escape cancels, cancels it. The flashing phase
reads the clock twice per iteration, once for the loop test and once for
`current_time`. It flips when `current_time` has reached
`last_flip_time + frame_duration`. After a flip the deadline advances by exactly
one frame from the previous deadline. The first flip is therefore due one frame
after the start.

`ShowFlashing` is proved to keep these properties:
- the deadline of the `n`-th flip is `start + n * frame`, so the schedule does not drift;
- the images alternate, starting with `img1`;
- there is at most one flip per iteration;
- a flip never comes early;
- a due flip is never skipped or postponed: every iteration whose `current_time` has reached the deadline flips.

Together these fix the whole presentation from the clock readings (`FlipTraceUnique`).

A steady clock never runs backwards, and its readings are at most half a frame
apart. On a steady clock:
- every flip comes less than a frame after its deadline;
- a completed phase ends with its last `current_time` between the current deadline and the next one;
- for a non-negative duration, a completed phase is within one flip of `int(duration * frequency * 2)` and never warns. The source always passes 20 seconds.

**Start gate.** Within a batch, the first decisive event wins. Within one
KEYDOWN, the start checks run before the ESC check. SPACE starts only in manual
or both mode. A typed character equal to the trigger character, ignoring case,
starts only in trigger or both mode. The queued serial trigger is checked only
after a batch that decided nothing, only in trigger or both mode, and only when
a trigger handler exists.

**Configuration.** The parsed JSON object is a `map<string, Json>`, and the
merge is `dict.update`. Normalisation is proved idempotent: a configuration that
has been normalised, saved and loaded again comes back unchanged.

Four behaviours of the source are easy to misread. The model follows the source in each:
- The first flip is due one frame after the start, not at the start (lines 526 and 540).
- The expected flip count uses `int()` truncation, not rounding (line 557).
- The instruction screen always runs, even with a duration of 0: `load_instruction_image` falls back to rendered text, so the test at line 739 always passes. Its duration counts towards the expected length (line 781).
- Within one poll, the first decisive event wins, and within one KEYDOWN the start checks come before ESC. A start signal can therefore win over a cancel in the same poll (lines 633-647).

## Model

| member | source | states |
|---|---|---|
| FlashScheduler.ShowFlashing | mvast_fmri_task.py:514-561 | The contract holds for every clock and event trace. Images alternate from `img1`. There is at most one flip per iteration. An iteration flips exactly when its `current_time` reached the deadline, so no flip is early, skipped or postponed. `last_flip_time == start + frame_count * frame`. The phase completes only at a loop test at or past the end. It is left pending only when the readings ran out, or when the batches ran out at a loop test before the end. It is cancelled only by the last consumed batch, with no flip in that iteration. The warning fires exactly when a completed phase is more than 2 flips off `int(duration*frequency*2)`. On a steady clock, every flip is less than a frame late, and a completed run ends with its last reading between the current deadline and the next. For a non-negative duration it is then within 1 flip and never warns. |
| FlashScheduler.DeadlineClosedForm | mvast_fmri_task.py:526-550 | Additive scheduling: after `n` flips the deadline is exactly `start + n * frame_duration`, whatever the loop latency. |
| FlashScheduler.IterationKeepsInvariant | mvast_fmri_task.py:529-551 | One iteration that neither cancels nor runs out of input preserves the loop invariant. The flip test (`FlipTest`, lines 539-550) presents the next image exactly when `current_time` reached `last_flip_time + frame_duration`. It then advances the deadline by one frame. Otherwise it records that the deadline was not yet due. The invariant covers alternation, count = flips, the additive deadline and the steady-clock bounds. |
| FlashScheduler.FlipTraceUnique | mvast_fmri_task.py:539-550 | Two presentation traces of the same iterations on the same clock readings are equal: the flip test leaves no choice about when to flip. |
| FlashScheduler.FlipsNeverEarly | mvast_fmri_task.py:539-550 | The `n`-th flip happens at least `n + 1` frames after the start, so `frame_count * frame_duration` never exceeds the elapsed time of the last flip. There are no more flips than iterations. |
| FlashScheduler.ToggleNext | mvast_fmri_task.py:542-547 | Toggling `current_image` after a flip selects the image the next flip must show: `img1` for odd flips, `img2` for even ones. |
| FlashScheduler.TruncDiv | mvast_fmri_task.py:557 | `int()` of a quotient truncates toward zero, for negative durations too. |
| FlashScheduler.NearExpected | mvast_fmri_task.py:555-559 | A count with its last deadline before `duration + frame` and the next-but-one deadline after the duration is within 1 of the truncated expectation. |
| FlashScheduler.SteadyFinish | mvast_fmri_task.py:555-559 | On a steady clock, a completed phase shows within one frame of the expected count, so the warning at line 558 cannot fire. |
| StaticPhase.RunStatic | mvast_fmri_task.py:464-486 | A static phase completes exactly when a loop test reads at or past `start + duration` before any batch cancelled. The first batch with QUIT or a cancelling ESC cancels it. It never polls past the first reading at or after the end. |
| StaticPhase.Loop | mvast_fmri_task.py:498-511 | The instruction-screen loop, which has the same body, read from iteration `k` on: the characterisation above relative to an end time. |
| StaticPhase.PrefixStable | mvast_fmri_task.py:476-486 | The loop is causal: once it returned, later readings and events cannot change its verdict or the number of batches it consumed. |
| StaticPhase.CompletesOnTime | mvast_fmri_task.py:476-486 | If some loop test reads at or past the end before any batch cancels, the phase completes, and it completes no later than that reading. |
| StartGate.EventDecision | mvast_fmri_task.py:634-647 | QUIT stops. SPACE starts exactly in manual or both mode. The trigger character, case-insensitively and non-empty, starts exactly in trigger or both mode. ESC stops only when escape cancels and no start check matched the same key press. |
| StartGate.BatchDecision | mvast_fmri_task.py:633-647 | A batch decides nothing exactly when none of its events does. Otherwise its decision is that of its first decisive event. |
| StartGate.AwaitStartMeetsContract | mvast_fmri_task.py:631-654 | The contract holds of the loop `AwaitStart`. Every poll before the deciding one was undecided. An abort follows a stopping batch. A start by SPACE needs manual or both mode. A start by trigger character needs trigger or both mode. A start by queued trigger needs an undecided batch, trigger or both mode, a handler, and an item queued by then. When the gate checks the queue, nothing was queued before the deciding poll. A gate still waiting has found nothing if it checks the queue, and keeps every item if it does not. With no poll at all, the queue is left as it was. |
| StartGate.ManualIgnoresTriggers | mvast_fmri_task.py:638-652 | In manual mode, the outcome does not depend on the trigger queue or on what the reader thread queued, and the gate starts only on SPACE. |
| StartGate.ManualKeepsQueue | mvast_fmri_task.py:650-652 | In manual mode the queue is never drained: every item the reader thread queued is still pending. |
| StartGate.QuitAborts | mvast_fmri_task.py:633-635 | A QUIT preceded only by undecided events and batches aborts the gate at its poll, unless a queued trigger started it first. With queue checks on, that means nothing was queued before the QUIT's poll. |
| StartGate.QueuedTriggerStarts | mvast_fmri_task.py:650-652 | In trigger or both mode with a handler, an undecided batch followed by a non-empty queue starts the session on that poll. |
| TriggerQueue.CheckTrigger | mvast_fmri_task.py:215-221 | Returns true exactly when the queue is non-empty, and then removes exactly its oldest item. On an empty queue it returns false and leaves the queue unchanged. |
| TriggerQueue.DrainCounts | mvast_fmri_task.py:215-221 | `n` checks succeed exactly `min(n, |queue|)` times and remove the oldest that many items. |
| TriggerQueue.PutThenCheck | mvast_fmri_task.py:194 | The queue is first-in first-out: an item the reader thread puts waits behind every older one. |
| Config.Defaults | mvast_fmri_task.py:44-57 | The default trigger is "=", the default scheme is "blue_yellow" and the default mode is "both". Both checkerboards and the instruction image are unset. The instruction duration is 10.0. |
| Config.Merge | mvast_fmri_task.py:63-75 | The merged record holds every default key and every file key. File values win. Defaults fill the rest. An unreadable file gives the defaults. |
| Config.CheckScheme | mvast_fmri_task.py:79-85 | A missing scheme counts as "blue_yellow". A non-text scheme raises. Otherwise the validated scheme is known, and only the `color_scheme` entry may change. |
| Config.CheckMode | mvast_fmri_task.py:103-106 | A missing mode counts as "both". A non-text mode raises. Otherwise only the `start_mode` entry may change. |
| Config.FillIfFalsy | mvast_fmri_task.py:86-98 | A checkerboard entry is replaced by the default name exactly when it is falsy. Every other entry is kept. |
| Config.DurationOf | mvast_fmri_task.py:108-118 | The stored duration is the parsed value when it is a non-negative number, otherwise 10.0. It is never negative. |
| Config.NormaliseFailures | mvast_fmri_task.py:79-103 | Normalisation of the merged record (`NormaliseMerged`) fails exactly when the colour scheme, or otherwise the start mode, is present and not text, and it reports which. |
| Config.NormaliseKeys | mvast_fmri_task.py:68-120 | Normalisation adds only the checkerboard and duration keys and rewrites no key other than the five it validates. |
| Config.NormaliseScheme | mvast_fmri_task.py:79-98 | A known scheme in any case is kept as written (only the lowered copy picks the file names), and an unknown one becomes "blue_yellow". Truthy checkerboard names are untouched. Falsy ones get the names for the validated scheme. |
| Config.NormaliseModeAndDuration | mvast_fmri_task.py:102-118 | A known start mode in any case is kept, and an unknown one becomes "both". A negative or unparsable instruction duration becomes 10.0. Otherwise the parsed value is stored. |
| Config.NormaliseIsStable | mvast_fmri_task.py:68-120 | Every successful normalisation gives a known scheme and mode, truthy checkerboard names, and a non-negative duration. |
| Config.StableIsFixed | mvast_fmri_task.py:68-120 | A normalised record passes the validation unchanged. |
| Config.NormaliseIdempotent | mvast_fmri_task.py:68-120 | Normalising twice is normalising once. |
| Config.ReloadIsIdentity | mvast_fmri_task.py:61-120 | Loading a saved normalised configuration yields it again. |
| Config.DefaultsNormalise | mvast_fmri_task.py:72-98 | Without a readable file, the configuration is the defaults with `acheck_by.png` and `acheck_by_.png` filled in. |
| Config.ToFloat | mvast_fmri_task.py:110 | `float()` keeps a number as it is. It raises on null, arrays and objects. |
| Config.ParseNatText | mvast_fmri_task.py:110 | `float()` of text (`ParseDecimal`) reads the decimal text of a whole number back as that number. |
| Config.ParseNegativeText | mvast_fmri_task.py:109-113 | `float()` reads a leading minus as negation. A negative whole number given as text fails the `< 0` test, so the stored duration is 10.0, while "-0" is stored as 0. |
| Config.ParseFractionText | mvast_fmri_task.py:110 | `float()` of whole digits, a point and fraction digits is the whole part plus the fraction digits divided by ten to the number of fraction digits. |
| Config.ModeOf | mvast_fmri_task.py:103-104 | A lowered mode is recognised exactly when it is "manual", "trigger" or "both", and each names its own start mode. |
| Session.Plan | mvast_fmri_task.py:739-778 | The uncancelled phase order: Instruction exactly when an instruction screen exists, then Fixation(c) and Checkerboard(c) for c = 1..5. |
| Session.PlanCounts | mvast_fmri_task.py:752-778 | The plan holds exactly five fixation and five checkerboard phases. |
| Session.RunPhases | mvast_fmri_task.py:739-778 | The trace is a prefix of the plan. It completes exactly when every planned phase completed. A cancel comes from the last phase run, and all phases before it completed. It is left pending only when the verdicts ran out or the last phase run was itself pending. |
| Session.FullSessionFollowsPlan | mvast_fmri_task.py:739-801 | A started session with no cancelled phase runs exactly the plan and completes. |
| Session.CancelStopsSession | mvast_fmri_task.py:745-776 | A phase that does not complete ends the session with its verdict. No later phase runs, and there is no drift warning. |
| Session.NoPhaseWithoutStart | mvast_fmri_task.py:698-731 | In `RunTask`, a missing checkerboard or fixation image ends the task before the gate. A gate that does not start ends it with no phase run. With ready images the gate always runs, so the timing check at lines 713-717 never fails. |
| Session.DriftWarning | mvast_fmri_task.py:780-793 | The expected length is `200 + instruction_duration` seconds. The warning fires exactly for a completed session more than 0.1 s off, and it never changes the verdict. |
| Session.DefaultTiming | mvast_fmri_task.py:32-35 | With the defaults a session is expected to last 210 s. A frame is 62500 ticks, or 125 ms, and a checkerboard phase expects 320 flips. |
| Session.GateOf | mvast_fmri_task.py:719-723 | A gate exists exactly when the start mode is text naming a known mode and a truthy trigger character is text. A missing mode reads as "both" and a missing trigger as "=". The gate's mode is the one the lowered `start_mode` names, and its trigger is the `trigger_character` text. It has a handler exactly when `trigger_character` is truthy, and escape always cancels. |
| Session.DefaultGate | mvast_fmri_task.py:44-46 | The default configuration gives a gate in both mode with trigger "=", a trigger handler, and ESC cancelling. |
| Session.LoadedConfigHasGate | mvast_fmri_task.py:567-568 | After `load_config`, a gate exists exactly when the trigger character is text or falsy: the start mode lowered by `wait_for_start` is always one of the three known modes. |
| FixationCross.CrossSize | mvast_fmri_task.py:267 | The cross size is the shorter screen side divided by 8, rounded down. |
| FixationCross.LineWidth | mvast_fmri_task.py:268 | The line width is a twentieth of the cross size, rounded down, but at least 3 pixels. |
| FixationCross.CrossIsSymmetric | mvast_fmri_task.py:270-279 | In the cross `MakeCross` builds, the vertical bar is the horizontal bar turned about the screen centre. |
| FixationCross.CrossIsCentredAndVisible | mvast_fmri_task.py:267-279 | On a screen at least 8 pixels each way, both bars cover the centre pixel and lie wholly on the screen. |

## Left out

- Rendering: pygame drawing, blitting, `display.flip`, fonts and image loading and scaling. A flip is a `Flip` entry in the presentation trace. Image availability is an input to `Session.RunTask`.
- The headless guards (`if not screen` and similar) at the top of each phase function: `run_task` never reaches them.
- Threads and hardware: the serial reader and the keyboard-simulation reader are left out. Only the items they put into the queue are modelled, as the `arrived` part of each start-gate poll.
- `time.sleep`, `datetime` timestamps, and every `print`, since they have no effect on behaviour. The post-loop `actual_duration` reading of the flashing phase and the per-phase `actual` readings of `run_task` are diagnostics only.
- JSON file reading and writing (`save_config`) are left out. A missing or unreadable file is `None`. A top-level JSON value that is not an object is not modelled. `dict.update` (line 69) accepts an array of key/value pairs. An empty string or empty array updates nothing. Any other top level makes it raise, which `load_config` catches. In the last two cases the merged record is the defaults, as with `None`.
- Session.RunTask: the image flags keep the tests at lines 706 and 739 visible, but `load_fixation_image` and `load_instruction_image` always return a surface (lines 247, 284, 303, 372), so `run_task` never produces `Images(_, false, _)` or `Images(_, _, false)`, and so never `Plan(false)`. Only the checkerboard flag can be false in the source.
- Session.RunTask: phase verdicts, the gate's verdict, image availability and the measured length are inputs. The phase and gate loops are modelled and proved on their own, but their results are not threaded through one shared clock.
- FlashScheduler.ShowFlashing: durations and `frame_duration` are whole ticks, and the frame duration is taken as `1 / (2 * frequency)` seconds exactly. Float rounding of `last_flip_time += frame_duration` and of `duration * frequency * 2` is not modelled.
- Session.DriftWarning: durations are exact reals, not binary floats.
- Config.DurationOf: a JSON number is an exact real (`Json.JNum`). The source's `json.load` also yields NaN and infinities. A NaN `instruction_duration` passes the `< 0` test at line 111 and is stored, and then the instruction loop at line 501 ends at once and the drift test at line 790 never fires. An integer literal too large for a float makes `float()` at line 110 raise `OverflowError`, which the handler at line 116 does not catch, so `load_config` fails. The model promises neither behaviour.
- Events.Lower: folds only ASCII letters, not the full Unicode `str.lower()`.
- Config.ParseDecimal: accepts only white space, an optional sign and decimal digits with an optional point. Exponents, `inf`, `nan` and digit separators are treated as unparsable, so they give 10.0 where Python would accept them. Only ASCII white space (space, tab, line feed, carriage return, vertical tab, form feed) is stripped, and only the ASCII digits 0-9 are read. Python's `str.strip()` and `float()` also accept other Unicode white space (such as U+00A0, U+0085, U+001C-U+001F, U+2003) and other Unicode decimal digits (such as full-width or Arabic-Indic digits). Text that uses them gives 10.0 in the model.
- Session.GateOf: a falsy `trigger_character` that is not text (null, false, 0, an empty array or object) becomes the empty trigger text. In manual mode this matches the source. In trigger or both mode, the source would raise at the first key press that carries text (line 643); the model treats that key press as no match.
- Session.GateOf: an unknown lowered start mode yields no gate. The source would wait in a loop that only QUIT or ESC can end. `load_config` never leaves such a mode (`LoadedConfigHasGate`).
- `show_message` and the completion screen, and the exit-code mapping in `main`.
- `KeyboardInterrupt` handling in `run_task`, and stopping the trigger handler in its `finally` clause.

=== FILE: config.dfy ===
/**
  Configuration normalisation: `load_config` after the JSON file has been
  read (mvast_fmri_task.py:44-57 and 68-118).

  The file's top-level object is a map from keys to JSON values; a missing
  or unreadable file is `None`. The result is the merged record with the
  colour scheme, checkerboard file names, start mode and instruction
  duration normalised, or the error that `.lower()` on a non-text value
  would raise.
 */
module Config {
  import opened Events

  datatype Json =
    | JNull
    | JBool(b: bool)
    | JNum(n: real)
    | JStr(s: string)
    | JArray(items: seq<Json>)
    | JObject(fields: map<string, Json>)

  type Record = map<string, Json>

  datatype Option<T> = None | Some(value: T)

  /** `.lower()` was applied to a value under this key that is not text. */
  datatype ConfigError = NotText(key: string)

  datatype Result<T> = Success(value: T) | Failure(error: ConfigError)

  /** The start modes the gate knows. */
  datatype StartMode = Manual | Trigger | Both

  const DefaultDuration: real := 10.0

  /** The twelve default settings. */
  function Defaults(): (d: Record)
    ensures "color_scheme" in d && d["color_scheme"] == JStr("blue_yellow")
    ensures "start_mode" in d && d["start_mode"] == JStr("both")
    ensures "checkerboard_image1" in d && d["checkerboard_image1"] == JNull
    ensures "checkerboard_image2" in d && d["checkerboard_image2"] == JNull
    ensures "trigger_character" in d && d["trigger_character"] == JStr("=")
    ensures "instruction_image" in d && d["instruction_image"] == JNull
    ensures "instruction_duration" in d && d["instruction_duration"] == JNum(DefaultDuration)
  {
    map[
      "trigger_character" := JStr("="),
      "start_mode" := JStr("both"),
      "color_scheme" := JStr("blue_yellow"),
      "use_serial_port" := JBool(false),
      "serial_port" := JNull,
      "images_dir" := JStr("images"),
      "fixation_image" := JNull,
      "checkerboard_image1" := JNull,
      "checkerboard_image2" := JNull,
      "instruction_image" := JNull,
      "instruction_text" := JNull,
      "instruction_duration" := JNum(DefaultDuration)
    ]
  }

  /** Python truthiness of a JSON value. */
  predicate Truthy(v: Json)
  {
    match v
    case JNull => false
    case JBool(b) => b
    case JNum(n) => n != 0.0
    case JStr(s) => s != []
    case JArray(items) => items != []
    case JObject(fields) => fields != map[]
  }

  /** `dict.get(key)`: the value, or `None` when the key is absent. */
  function Get(m: Record, key: string): Json
  {
    GetOr(m, key, JNull)
  }

  /** `dict.get(key, default)`. */
  function GetOr(m: Record, key: string, default: Json): Json
  {
    if key in m then m[key] else default
  }

  /** The colour scheme `load_config` validates; "blue_yellow" when the key is missing. */
  function SchemeEntry(m: Record): Json
  {
    GetOr(m, "color_scheme", JStr("blue_yellow"))
  }

  /** The start mode `load_config` and `wait_for_start` read; "both" when the key is missing. */
  function ModeEntry(m: Record): Json
  {
    GetOr(m, "start_mode", JStr("both"))
  }

  /** The instruction duration `load_config` converts; 10.0 when the key is missing. */
  function DurationEntry(m: Record): Json
  {
    GetOr(m, "instruction_duration", JNum(DefaultDuration))
  }

  /** The defaults updated with the file's entries; an unreadable file leaves the defaults. */
  function Merge(file: Option<Record>): (m: Record)
    ensures file.None? ==> m == Defaults()
    ensures Defaults().Keys <= m.Keys
    ensures file.Some? ==> m.Keys == Defaults().Keys + file.value.Keys
    ensures file.Some? ==> forall k :: k in file.value ==> m[k] == file.value[k]
    ensures forall k :: k in Defaults() && (file.None? || k !in file.value) ==> m[k] == Defaults()[k]
  {
    match file
    case None => Defaults()
    case Some(f) => Defaults() + f
  }

  // ---- Colour scheme and start mode -------------------------------------

  predicate KnownScheme(s: string)
  {
    s == "blue_yellow" || s == "black_white"
  }

  function ModeOf(s: string): (r: Option<StartMode>)
    ensures r.Some? <==> s == "manual" || s == "trigger" || s == "both"
    ensures r == Some(Manual) <==> s == "manual"
    ensures r == Some(Trigger) <==> s == "trigger"
    ensures r == Some(Both) <==> s == "both"
  {
    if s == "manual" then Some(Manual)
    else if s == "trigger" then Some(Trigger)
    else if s == "both" then Some(Both)
    else None
  }

  /** The default file names of the two checkerboard frames for a (validated) scheme. */
  function CheckerboardNames(scheme: string): (string, string)
  {
    if scheme == "black_white" then ("acheck_bw.png", "acheck_bw_.png")
    else ("acheck_by.png", "acheck_by_.png")
  }

  /** Fill `key` with `name` unless it holds a truthy value. */
  function FillIfFalsy(m: Record, key: string, name: string): (r: Record)
    ensures r.Keys == m.Keys + {key}
    ensures r[key] == if Truthy(Get(m, key)) then m[key] else JStr(name)
    ensures forall k :: k in m && k != key ==> r[k] == m[k]
  {
    if Truthy(Get(m, key)) then m else m[key := JStr(name)]
  }

  // ---- Number parsing -----------------------------------------------------

  /** An ASCII decimal digit; `float()` also reads other Unicode decimal digits. */
  predicate IsDigit(c: char)
  {
    '0' <= c <= '9'
  }

  predicate AllDigits(s: string)
  {
    forall i :: 0 <= i < |s| ==> IsDigit(s[i])
  }

  function DigitValue(c: char): nat
    requires IsDigit(c)
  {
    c as int - '0' as int
  }

  /** The value of a run of decimal digits, most significant first. */
  function DigitsValue(s: string): nat
    requires AllDigits(s)
  {
    if s == [] then 0 else DigitsValue(s[..|s| - 1]) * 10 + DigitValue(s[|s| - 1])
  }

  function Pow10(n: nat): (r: nat)
    ensures r > 0
  {
    if n == 0 then 1 else 10 * Pow10(n - 1)
  }

  /** ASCII white space; `str.isspace()` holds of further Unicode characters. */
  predicate IsSpace(c: char)
  {
    c == ' ' || c == '\t' || c == '\n' || c == '\r' || c == '\U{B}' || c == '\U{C}'
  }

  /** `str.strip()` for ASCII white space: the text without leading and trailing white space. */
  function Strip(s: string): (r: string)
    ensures |r| <= |s|
    ensures r != [] ==> !IsSpace(r[0]) && !IsSpace(r[|r| - 1])
    decreases |s|
  {
    if s != [] && IsSpace(s[0]) then Strip(s[1..])
    else if s != [] && IsSpace(s[|s| - 1]) then Strip(s[..|s| - 1])
    else s
  }

  /** The value of a decimal with whole part `whole` and `digits` fraction digits reading `frac`. */
  function FractionValue(whole: nat, frac: nat, digits: nat): (v: real)
    ensures v >= whole as real
  {
    whole as real + frac as real / Pow10(digits) as real
  }

  /** An unsigned decimal: digits, optionally a point and more digits, with a digit somewhere. */
  function UnsignedDecimal(s: string): (r: Option<real>)
    ensures r.Some? ==> r.value >= 0.0
  {
    if exists i :: 0 <= i < |s| && s[i] == '.' then
      var i :| 0 <= i < |s| && s[i] == '.';
      var whole, frac := s[..i], s[i + 1..];
      if |s| > 1 && AllDigits(whole) && AllDigits(frac) then
        Some(FractionValue(DigitsValue(whole), DigitsValue(frac), |frac|))
      else None
    else if s != [] && AllDigits(s) then Some(DigitsValue(s) as real)
    else None
  }

  /**
    `float()` on text, for the decimal notation only: optional white space,
    an optional sign, then an unsigned decimal.
   */
  function ParseDecimal(text: string): (r: Option<real>)
  {
    var s := Strip(text);
    if s != [] && s[0] == '-' then
      match UnsignedDecimal(s[1..])
      case Some(x) => Some(-x)
      case None => None
    else if s != [] && s[0] == '+' then UnsignedDecimal(s[1..])
    else UnsignedDecimal(s)
  }

  /** `float(v)`: numbers as they are, booleans as one and zero, text parsed; anything else raises. */
  function ToFloat(v: Json): (r: Option<real>)
    ensures v.JNum? ==> r == Some(v.n)
    ensures v.JNull? || v.JArray? || v.JObject? ==> r.None?
  {
    match v
    case JNum(n) => Some(n)
    case JBool(b) => Some(if b then 1.0 else 0.0)
    case JStr(s) => ParseDecimal(s)
    case _ => None
  }

  /** The instruction duration `load_config` stores for a raw setting. */
  function DurationOf(v: Json): (d: real)
    ensures d >= 0.0
    ensures ToFloat(v).Some? && ToFloat(v).value >= 0.0 ==> d == ToFloat(v).value
    ensures ToFloat(v).None? || ToFloat(v).value < 0.0 ==> d == DefaultDuration
  {
    match ToFloat(v)
    case Some(x) => if x < 0.0 then DefaultDuration else x
    case None => DefaultDuration
  }

  // ---- The normalisation --------------------------------------------------

  /**
    The scheme validation: the lowered scheme, and the record with an
    unknown scheme replaced by "blue_yellow". A known scheme is kept in
    the record as written, whatever its case.
   */
  function CheckScheme(m: Record): (r: Result<(string, Record)>)
    ensures r.Failure? <==> !SchemeEntry(m).JStr?
    ensures r.Failure? ==> r.error == NotText("color_scheme")
    ensures r.Success? ==> KnownScheme(r.value.0) && r.value.1.Keys == m.Keys
    ensures r.Success? ==> forall k :: k in m && k != "color_scheme" ==> r.value.1[k] == m[k]
  {
    var v := SchemeEntry(m);
    ReplacementsAreLowerCase();
    if !v.JStr? then Failure(NotText("color_scheme"))
    else if KnownScheme(Lower(v.s)) then Success((Lower(v.s), m))
    else Success(("blue_yellow", m["color_scheme" := JStr("blue_yellow")]))
  }

  /** The start-mode validation: an unknown mode becomes "both", a known one is kept as written. */
  function CheckMode(m: Record): (r: Result<Record>)
    ensures r.Failure? <==> !ModeEntry(m).JStr?
    ensures r.Failure? ==> r.error == NotText("start_mode")
    ensures r.Success? ==> r.value.Keys == m.Keys
    ensures r.Success? ==> forall k :: k in m && k != "start_mode" ==> r.value[k] == m[k]
  {
    var v := ModeEntry(m);
    ReplacementsAreLowerCase();
    if !v.JStr? then Failure(NotText("start_mode"))
    else if ModeOf(Lower(v.s)).Some? then Success(m)
    else Success(m["start_mode" := JStr("both")])
  }

  /** The record after the scheme check and the checkerboard defaults. */
  function Filled(merged: Record): (m2: Record)
    requires SchemeEntry(merged).JStr?
    ensures m2.Keys == merged.Keys + {"checkerboard_image1", "checkerboard_image2"}
    ensures forall k :: k in merged && k != "color_scheme" && k != "checkerboard_image1" && k != "checkerboard_image2" ==>
      m2[k] == merged[k]
  {
    var (scheme, m1) := CheckScheme(merged).value;
    var (name1, name2) := CheckerboardNames(scheme);
    FillIfFalsy(FillIfFalsy(m1, "checkerboard_image1", name1), "checkerboard_image2", name2)
  }

  /** The validation steps of `load_config`, in the source's order, on a merged record. */
  function NormaliseMerged(merged: Record): Result<Record>
  {
    if !SchemeEntry(merged).JStr? then Failure(NotText("color_scheme"))
    else
      match CheckMode(Filled(merged))
      case Failure(e) => Failure(e)
      case Success(m3) => Success(m3["instruction_duration" := JNum(DurationOf(DurationEntry(m3)))])
  }

  /** `load_config` from the parsed file on. */
  function Normalise(file: Option<Record>): Result<Record>
  {
    NormaliseMerged(Merge(file))
  }

  /** The keys `load_config` may rewrite. */
  predicate Normalised(k: string)
  {
    k == "color_scheme" || k == "checkerboard_image1" || k == "checkerboard_image2"
    || k == "start_mode" || k == "instruction_duration"
  }

  /** A successful normalisation adds the checkerboard and duration keys and rewrites no other key. */
  ghost predicate KeysKept(merged: Record, r: Record)
  {
    && r.Keys == merged.Keys + {"checkerboard_image1", "checkerboard_image2", "instruction_duration"}
    && (forall k :: k in merged && !Normalised(k) ==> r[k] == merged[k])
  }

  /**
    A known colour scheme (in any case) is kept as written and an unknown
    one becomes "blue_yellow"; truthy checkerboard names are untouched and
    the others are filled with the names for the validated scheme.
   */
  ghost predicate SchemeApplied(merged: Record, r: Record)
    requires SchemeEntry(merged).JStr?
  {
    var scheme := Lower(SchemeEntry(merged).s);
    var names := CheckerboardNames(if KnownScheme(scheme) then scheme else "blue_yellow");
    && "checkerboard_image1" in r && "checkerboard_image2" in r
    && SchemeEntry(r) == (if KnownScheme(scheme) then SchemeEntry(merged) else JStr("blue_yellow"))
    && r["checkerboard_image1"] == (if Truthy(Get(merged, "checkerboard_image1")) then merged["checkerboard_image1"] else JStr(names.0))
    && r["checkerboard_image2"] == (if Truthy(Get(merged, "checkerboard_image2")) then merged["checkerboard_image2"] else JStr(names.1))
  }

  /**
    A known start mode (in any case) is kept as written and an unknown one
    becomes "both"; the instruction duration is the parsed value when it
    is a non-negative number, otherwise 10.0.
   */
  ghost predicate ModeAndDurationApplied(merged: Record, r: Record)
    requires ModeEntry(merged).JStr?
  {
    && "instruction_duration" in r
    && ModeEntry(r) == (if ModeOf(Lower(ModeEntry(merged).s)).Some? then ModeEntry(merged) else JStr("both"))
    && r["instruction_duration"] == JNum(DurationOf(DurationEntry(merged)))
  }

  /** The validation fails exactly when the colour scheme, or else the start mode, is not text. */
  lemma NormaliseFailures(merged: Record)
    ensures NormaliseMerged(merged).Failure? <==> !SchemeEntry(merged).JStr? || !ModeEntry(merged).JStr?
    ensures !SchemeEntry(merged).JStr? ==> NormaliseMerged(merged) == Failure(NotText("color_scheme"))
    ensures SchemeEntry(merged).JStr? && !ModeEntry(merged).JStr? ==>
      NormaliseMerged(merged) == Failure(NotText("start_mode"))
  {
    if SchemeEntry(merged).JStr? {
      assert ModeEntry(Filled(merged)) == ModeEntry(merged);
    }
  }

  lemma NormaliseKeys(merged: Record)
    ensures NormaliseMerged(merged).Success? ==> KeysKept(merged, NormaliseMerged(merged).value)
  {
    if SchemeEntry(merged).JStr? && ModeEntry(merged).JStr? {
      var m2 := Filled(merged);
      assert ModeEntry(m2) == ModeEntry(merged);
      assert m2.Keys == merged.Keys + {"checkerboard_image1", "checkerboard_image2"};
    }
  }

  lemma NormaliseScheme(merged: Record)
    ensures NormaliseMerged(merged).Success? ==> SchemeApplied(merged, NormaliseMerged(merged).value)
  {
    if SchemeEntry(merged).JStr? && ModeEntry(merged).JStr? {
      var m2 := Filled(merged);
      assert ModeEntry(m2) == ModeEntry(merged);
    }
  }

  lemma NormaliseModeAndDuration(merged: Record)
    ensures NormaliseMerged(merged).Success? ==> ModeAndDurationApplied(merged, NormaliseMerged(merged).value)
  {
    if SchemeEntry(merged).JStr? && ModeEntry(merged).JStr? {
      var m2 := Filled(merged);
      assert ModeEntry(m2) == ModeEntry(merged);
      assert DurationEntry(CheckMode(m2).value) == DurationEntry(merged);
    }
  }

  /** The replacement scheme and mode are already lower case. */
  lemma ReplacementsAreLowerCase()
    ensures Lower("blue_yellow") == "blue_yellow"
    ensures Lower("both") == "both"
  {
    assert forall i :: 0 <= i < |"blue_yellow"| ==> LowerChar("blue_yellow"[i]) == "blue_yellow"[i];
    assert forall i :: 0 <= i < |"both"| ==> LowerChar("both"[i]) == "both"[i];
  }

  /** Text already in a known scheme or mode, in any case, stays known after lower-casing again. */
  lemma KnownStaysKnown(v: Json)
    requires v.JStr?
    ensures KnownScheme(Lower(v.s)) ==> KnownScheme(Lower(Lower(v.s)))
    ensures ModeOf(Lower(v.s)).Some? ==> ModeOf(Lower(Lower(v.s))).Some?
  {
    LowerIdempotent(v.s);
  }

  /**
    A normalised record: a known scheme and mode (in any case), truthy
    checkerboard names and a non-negative instruction duration.
   */
  ghost predicate Stable(r: Record)
  {
    && SchemeEntry(r).JStr? && KnownScheme(Lower(SchemeEntry(r).s))
    && ModeEntry(r).JStr? && ModeOf(Lower(ModeEntry(r).s)).Some?
    && Truthy(Get(r, "checkerboard_image1")) && Truthy(Get(r, "checkerboard_image2"))
    && Get(r, "instruction_duration").JNum? && r["instruction_duration"].n >= 0.0
  }

  /** Every successful normalisation yields a normalised record. */
  lemma {:induction false} NormaliseIsStable(merged: Record)
    ensures NormaliseMerged(merged).Success? ==> Stable(NormaliseMerged(merged).value)
  {
    if NormaliseMerged(merged).Success? {
      NormaliseFailures(merged);
      NormaliseScheme(merged);
      NormaliseModeAndDuration(merged);
      AppliedIsStable(merged, NormaliseMerged(merged).value);
    }
  }

  lemma AppliedIsStable(merged: Record, r: Record)
    requires SchemeEntry(merged).JStr? && ModeEntry(merged).JStr?
    requires SchemeApplied(merged, r) && ModeAndDurationApplied(merged, r)
    ensures Stable(r)
  {
    ReplacementsAreLowerCase();
    KnownStaysKnown(SchemeEntry(merged));
    KnownStaysKnown(ModeEntry(merged));
  }

  /** The validation leaves a normalised record exactly as it is. */
  lemma {:induction false} StableIsFixed(r: Record)
    requires Stable(r)
    ensures NormaliseMerged(r) == Success(r)
  {
    NormaliseFailures(r);
    var r' := NormaliseMerged(r).value;
    NormaliseKeys(r);
    NormaliseScheme(r);
    NormaliseModeAndDuration(r);
    assert r'.Keys == r.Keys;
    forall k | k in r
      ensures r'[k] == r[k]
    {
      if !Normalised(k) {
        assert r'[k] == r[k];
      }
    }
    SameRecord(r', r);
  }

  lemma SameRecord(a: Record, b: Record)
    requires a.Keys == b.Keys
    requires forall k :: k in a ==> a[k] == b[k]
    ensures a == b
  {
  }

  /**
    Normalisation is idempotent: a normalised record passes through the
    validation again unchanged.
   */
  lemma NormaliseIdempotent(merged: Record)
    ensures NormaliseMerged(merged).Success? ==> NormaliseMerged(NormaliseMerged(merged).value) == NormaliseMerged(merged)
  {
    if NormaliseMerged(merged).Success? {
      NormaliseIsStable(merged);
      StableIsFixed(NormaliseMerged(merged).value);
    }
  }

  /** Merging the defaults into a successfully normalised record adds nothing. */
  lemma {:induction false} MergeNormalised(file: Option<Record>)
    requires Normalise(file).Success?
    ensures Merge(Some(Normalise(file).value)) == Normalise(file).value
  {
    var r := Normalise(file).value;
    NormaliseKeys(Merge(file));
    UpdateCovered(Defaults(), r);
  }

  /** Updating a record with one that has all its keys gives the latter. */
  lemma UpdateCovered(d: Record, r: Record)
    requires d.Keys <= r.Keys
    ensures d + r == r
  {
  }

  /** Loading a saved normalised configuration gives it back. */
  lemma ReloadIsIdentity(file: Option<Record>)
    ensures Normalise(file).Success? ==> Normalise(Some(Normalise(file).value)) == Normalise(file)
  {
    if Normalise(file).Success? {
      MergeNormalised(file);
      NormaliseIdempotent(Merge(file));
    }
  }

  /**
    Without a readable file the configuration is the defaults with the
    blue/yellow checkerboards filled in.
   */
  lemma {:induction false} DefaultsNormalise()
    ensures Normalise(None) == Success(Defaults()["checkerboard_image1" := JStr("acheck_by.png")]
                                                 ["checkerboard_image2" := JStr("acheck_by_.png")])
  {
    var d := Defaults();
    var expected := d["checkerboard_image1" := JStr("acheck_by.png")]["checkerboard_image2" := JStr("acheck_by_.png")];
    ReplacementsAreLowerCase();
    DefaultsFilled();
    assert CheckMode(expected) == Success(expected);
    assert DurationOf(DurationEntry(expected)) == DefaultDuration;
    assert expected["instruction_duration" := JNum(DefaultDuration)] == expected;
  }

  /** The defaults keep their scheme and get the blue/yellow checkerboard names. */
  lemma DefaultsFilled()
    ensures SchemeEntry(Defaults()).JStr?
    ensures Filled(Defaults()) == Defaults()["checkerboard_image1" := JStr("acheck_by.png")]
                                            ["checkerboard_image2" := JStr("acheck_by_.png")]
  {
    ReplacementsAreLowerCase();
    assert CheckScheme(Defaults()) == Success(("blue_yellow", Defaults()));
  }

  // ---- Decimal text round trip -------------------------------------------

  function DigitChar(d: nat): (c: char)
    requires d < 10
    ensures IsDigit(c) && DigitValue(c) == d
  {
    ('0' as int + d) as char
  }

  /** The decimal text of a natural number, without leading zeros. */
  function NatText(n: nat): (s: string)
    ensures s != [] && AllDigits(s)
  {
    if n < 10 then [DigitChar(n)] else NatText(n / 10) + [DigitChar(n % 10)]
  }

  lemma {:induction false} DigitsOfNatText(n: nat)
    ensures DigitsValue(NatText(n)) == n
  {
    var s := NatText(n);
    if n >= 10 {
      DigitsOfNatText(n / 10);
      assert s[..|s| - 1] == NatText(n / 10);
    }
  }

  /** `float()` reads the decimal text of a whole number back as that number. */
  lemma ParseNatText(n: nat)
    ensures ParseDecimal(NatText(n)) == Some(n as real)
    ensures ToFloat(JStr(NatText(n))) == Some(n as real)
  {
    var s := NatText(n);
    DigitsOfNatText(n);
    assert Strip(s) == s;
    assert !exists i :: 0 <= i < |s| && s[i] == '.';
  }

  /**
    `float()` reads a minus sign as negation, so a negative whole number as
    text is rejected by the `instruction_duration` check and replaced by the
    default, while "-0" is kept as zero.
   */
  lemma ParseNegativeText(n: nat)
    ensures ParseDecimal("-" + NatText(n)) == Some(-(n as real))
    ensures DurationOf(JStr("-" + NatText(n))) == if n == 0 then 0.0 else DefaultDuration
  {
    var t := NatText(n);
    var s := "-" + t;
    DigitsOfNatText(n);
    assert s[|s| - 1] == t[|t| - 1];
    StripKeeps(s);
    assert s[1..] == t;
    WholeDigits(t);
  }

  /** A run of digits with no point is an unsigned decimal of its digit value. */
  lemma WholeDigits(t: string)
    requires t != [] && AllDigits(t)
    ensures UnsignedDecimal(t) == Some(DigitsValue(t) as real)
  {
    assert forall i :: 0 <= i < |t| ==> t[i] != '.';
  }

  /** Whole digits, a point and fraction digits form an unsigned decimal of the whole part plus the scaled fraction. */
  lemma {:induction false} PointSplit(w: string, f: string)
    requires w != [] && AllDigits(w) && AllDigits(f)
    ensures UnsignedDecimal(w + "." + f) == Some(FractionValue(DigitsValue(w), DigitsValue(f), |f|))
  {
    var s := w + "." + f;
    forall j | 0 <= j < |s| && j != |w|
      ensures IsDigit(s[j])
    {
      if j < |w| {
        assert s[j] == w[j];
      } else {
        assert s[j] == f[j - |w| - 1];
      }
    }
    assert s[|w|] == '.';
    assert s[..|w|] == w && s[|w| + 1..] == f;
  }

  /** `float()` reads whole digits, a point and fraction digits as the whole part plus the scaled fraction. */
  lemma ParseFraction(w: string, f: string)
    requires w != [] && AllDigits(w) && AllDigits(f) && f != []
    ensures ParseDecimal(w + "." + f) == Some(FractionValue(DigitsValue(w), DigitsValue(f), |f|))
  {
    var s := w + "." + f;
    assert s[0] == w[0] && s[|s| - 1] == f[|f| - 1];
    StripKeeps(s);
    PointSplit(w, f);
  }

  /** The same for the decimal texts of two natural numbers. */
  lemma ParseFractionText(whole: nat, frac: nat)
    ensures ParseDecimal(NatText(whole) + "." + NatText(frac)) == Some(FractionValue(whole, frac, |NatText(frac)|))
  {
    var w, f := NatText(whole), NatText(frac);
    DigitsOfNatText(whole);
    DigitsOfNatText(frac);
    ParseFraction(w, f);
  }

  /** Text without leading or trailing white space is its own `strip()`. */
  lemma StripKeeps(s: string)
    requires s != [] && !IsSpace(s[0]) && !IsSpace(s[|s| - 1])
    ensures Strip(s) == s
  {
  }
}

=== FILE: events.dfy ===
/**
  Input events and phase verdicts shared by every polling loop of the task.

  A pygame event queue read (`pygame.event.get()`) is modelled as a batch: a
  sequence of events in arrival order. A loop that polls the queue once per
  iteration consumes one batch per iteration.
 */
module Events {

  /** The keys the task distinguishes; every other key carries its code. */
  datatype Key = Space | Escape | OtherKey(code: int)

  /** A pygame event: window close, a key press with the text it types, or anything else. */
  datatype Event = Quit | KeyDown(key: Key, unicode: string) | OtherEvent

  /**
    The result of a timed loop: `Completed` is the source's `True`,
    `Cancelled` its `False`, and `Pending` says that the supplied clock or
    event trace ended while the loop was still polling.
   */
  datatype Verdict = Completed | Cancelled | Pending

  /** ASCII case folding, the part of `str.lower()` the model covers. */
  function LowerChar(c: char): char
  {
    if 'A' <= c <= 'Z' then (c as int + 32) as char else c
  }

  function Lower(s: string): (r: string)
    ensures |r| == |s|
    ensures forall i :: 0 <= i < |s| ==> r[i] == LowerChar(s[i])
  {
    seq(|s|, i requires 0 <= i < |s| => LowerChar(s[i]))
  }

  /** Folding twice changes nothing: a lower-cased text is its own lower case. */
  lemma LowerIdempotent(s: string)
    ensures Lower(Lower(s)) == Lower(s)
  {
    assert forall i :: 0 <= i < |s| ==> LowerChar(LowerChar(s[i])) == LowerChar(s[i]);
  }

  /** An event that ends a static or flashing phase: QUIT, or ESC when escape cancels. */
  predicate CancelsPhase(e: Event, escapeCancels: bool)
  {
    e.Quit? || (escapeCancels && e.KeyDown? && e.key == Escape)
  }

  /** Some event of the batch ends the phase. */
  predicate BatchCancels(batch: seq<Event>, escapeCancels: bool)
  {
    exists i :: 0 <= i < |batch| && CancelsPhase(batch[i], escapeCancels)
  }
}

=== FILE: fixation_cross.dfy ===
/**
  The integer geometry of the programmatic fixation cross
  (mvast_fmri_task.py:266-279): a plus sign whose arms are an eighth of the
  shorter screen side long, at least three pixels thick, centred on the
  screen. Colours and drawing are not modelled.
 */
module FixationCross {

  /** A pygame rectangle: left, top, width, height. */
  datatype Rect = Rect(x: int, y: int, w: int, h: int)

  datatype Cross = Cross(horizontal: Rect, vertical: Rect)

  function Min(a: int, b: int): int
  {
    if a <= b then a else b
  }

  function Max(a: int, b: int): int
  {
    if a >= b then a else b
  }

  /** The pixel `(px, py)` lies inside `r`. */
  predicate Covers(r: Rect, px: int, py: int)
  {
    r.x <= px < r.x + r.w && r.y <= py < r.y + r.h
  }

  /** `r` lies wholly on a `width` by `height` screen. */
  predicate Inside(r: Rect, width: nat, height: nat)
  {
    0 <= r.x && r.x + r.w <= width && 0 <= r.y && r.y + r.h <= height
  }

  /** `cross_size`: an eighth of the shorter side, rounded down. */
  function CrossSize(width: nat, height: nat): (s: nat)
    ensures 8 * s <= Min(width, height) < 8 * s + 8
  {
    Min(width, height) / 8
  }

  /** `line_width`: a twentieth of the cross size, but at least three pixels. */
  function LineWidth(size: nat): (lw: nat)
    ensures lw >= 3
    ensures (20 * lw <= size < 20 * lw + 20) || (lw == 3 && size < 80)
  {
    Max(3, size / 20)
  }

  /** The two bars of the plus sign on a `width` by `height` screen. */
  function MakeCross(width: nat, height: nat): (c: Cross)
  {
    var size := CrossSize(width, height);
    var lw := LineWidth(size);
    var cx, cy := width / 2, height / 2;
    Cross(Rect(cx - size / 2, cy - lw / 2, size, lw), Rect(cx - lw / 2, cy - size / 2, lw, size))
  }

  /**
    The vertical bar is the horizontal bar turned about the screen centre:
    same length, same thickness, the same offsets from the centre.
   */
  lemma CrossIsSymmetric(width: nat, height: nat)
    ensures var c := MakeCross(width, height);
      && c.horizontal.w == c.vertical.h && c.horizontal.h == c.vertical.w
      && width / 2 - c.horizontal.x == height / 2 - c.vertical.y
      && height / 2 - c.horizontal.y == width / 2 - c.vertical.x
  {
  }

  /**
    On a screen at least eight pixels each way both bars are non-empty,
    cover the centre pixel, and lie wholly on the screen.
   */
  lemma CrossIsCentredAndVisible(width: nat, height: nat)
    requires width >= 8 && height >= 8
    ensures var c := MakeCross(width, height);
      && Covers(c.horizontal, width / 2, height / 2)
      && Covers(c.vertical, width / 2, height / 2)
      && Inside(c.horizontal, width, height)
      && Inside(c.vertical, width, height)
  {
    var size := CrossSize(width, height);
    var lw := LineWidth(size);
    assert size >= 1;
    assert lw <= size || lw == 3;
  }
}

=== FILE: flash_scheduler.dfy ===
/**
  The flashing-checkerboard loop, `show_flashing_checkerboard`
  (mvast_fmri_task.py:514-561).

  Time is an integer tick clock. `frameTicks` is the half period
  `1 / frequency / 2` expressed in ticks. The clock is the sequence of
  `perf_counter` readings in call order: `clock[0]` is the start time, and
  iteration `j` reads `clock[1 + 2j]` for the loop test and `clock[2 + 2j]`
  as `current_time` for the flip test. Iteration `j` also consumes event
  batch `batches[j]`.
 */
module FlashScheduler {
  import opened Events

  /** The two checkerboard images: `img1` and `img2`. */
  datatype Frame = Image1 | Image2

  /** One presentation: which image, the clock reading that made it due, and the iteration it happened in. */
  datatype Flip = Flip(frame: Frame, at: int, poll: nat)

  /**
    The outcome of a flashing phase: the verdict, the presentation trace,
    the loop variables `frame_count` and `last_flip_time` as the loop left
    them, the number of event batches consumed, and whether the closing
    frame-count check printed its warning.
   */
  datatype FlashRun = FlashRun(verdict: Verdict, flips: seq<Flip>, frameCount: nat, lastFlipTime: int,
                               polls: nat, warned: bool)

  /** The time the `n`-th flip falls due under additive scheduling: one frame after the previous deadline. */
  function Deadline(start: int, frameTicks: nat, n: nat): int
  {
    if n == 0 then start else Deadline(start, frameTicks, n - 1) + frameTicks
  }

  /** Additive scheduling accumulates no drift: the `n`-th deadline is exactly `n` frames after the start. */
  lemma {:induction false} DeadlineClosedForm(start: int, frameTicks: nat, n: nat)
    ensures Deadline(start, frameTicks, n) == start + n * frameTicks
  {
    if n > 0 {
      DeadlineClosedForm(start, frameTicks, n - 1);
      assert (n - 1) * frameTicks + frameTicks == n * frameTicks;
    }
  }

  /** Python's `int()` of a quotient: division truncating toward zero. */
  function TruncDiv(a: int, b: int): (q: int)
    requires b > 0
    ensures a >= 0 ==> q * b <= a < q * b + b
    ensures a < 0 ==> q * b - b < a <= q * b
  {
    if a >= 0 then a / b else -((-a) / b)
  }

  function Abs(x: int): int
  {
    if x < 0 then -x else x
  }

  /** `int(duration * frequency * 2)`: the flip count a phase of `duration` ticks should show. */
  function ExpectedFrames(duration: int, frameTicks: nat): int
    requires frameTicks > 0
  {
    TruncDiv(duration, frameTicks)
  }

  /** The loop test reading of iteration `j`. */
  function CheckReading(clock: seq<int>, j: nat): int
    requires 1 + 2 * j < |clock|
  {
    clock[1 + 2 * j]
  }

  /** The `current_time` reading of iteration `j`. */
  function FlipReading(clock: seq<int>, j: nat): int
    requires 2 + 2 * j < |clock|
  {
    clock[2 + 2 * j]
  }

  /**
    A steady clock: it never runs backwards and successive readings are at
    most half a frame apart, so one loop iteration (two readings) never
    takes longer than a frame.
   */
  ghost predicate SteadyClock(clock: seq<int>, frameTicks: nat)
  {
    forall i :: 0 <= i < |clock| - 1 ==> 0 <= Gap(clock, i) && 2 * Gap(clock, i) <= frameTicks
  }

  /** The time between reading `i` and reading `i + 1`. */
  function Gap(clock: seq<int>, i: nat): int
    requires i + 1 < |clock|
  {
    clock[i + 1] - clock[i]
  }

  lemma SteadyTwoSteps(clock: seq<int>, frameTicks: nat, i: nat)
    requires SteadyClock(clock, frameTicks)
    requires i + 2 < |clock|
    ensures clock[i] <= clock[i + 1] <= clock[i + 2] <= clock[i] + frameTicks
    ensures 2 * (clock[i + 2] - clock[i + 1]) <= frameTicks
  {
    assert 0 <= Gap(clock, i) && 2 * Gap(clock, i) <= frameTicks;
    assert 0 <= Gap(clock, i + 1) && 2 * Gap(clock, i + 1) <= frameTicks;
  }

  /**
    With `count` frames due no later than `duration + frame` and the phase
    ending before frame `count + 2` was due, `count` is within one of the
    truncated expectation.
   */
  lemma NearExpected(count: nat, frameTicks: nat, duration: int)
    requires frameTicks > 0 && duration >= 0
    requires count * frameTicks < duration + frameTicks
    requires duration < (count + 2) * frameTicks
    ensures Abs(count - ExpectedFrames(duration, frameTicks)) <= 1
  {
    var q := ExpectedFrames(duration, frameTicks);
    assert q * frameTicks <= duration < q * frameTicks + frameTicks;
    if count > q + 1 {
      MulMono(q + 2, count, frameTicks);
      assert false;
    }
    if q > count + 1 {
      MulMono(count + 2, q, frameTicks);
      assert false;
    }
  }

  lemma MulMono(a: int, b: int, c: nat)
    requires a <= b
    ensures a * c <= b * c
  {
    assert b * c - a * c == (b - a) * c;
  }

  /** The image the `n`-th flip (counting from 0) presents: `img1` first, then alternating. */
  function FrameOf(n: nat): Frame
  {
    if n % 2 == 0 then Image1 else Image2
  }

  /** The loop's `current_image` flag: `True` shows `img1`. */
  function Shown(current: bool): Frame
  {
    if current then Image1 else Image2
  }

  /** Toggling `current_image` after a flip selects the image of the next flip. */
  lemma ToggleNext(current: bool, n: nat)
    requires Shown(current) == FrameOf(n)
    ensures Shown(!current) == FrameOf(n + 1)
  {
  }

  /** The first iteration in which flip `n` can happen: the one after flip `n - 1`. */
  function After(flips: seq<Flip>, n: nat): nat
    requires n <= |flips|
  {
    if n == 0 then 0 else flips[n - 1].poll + 1
  }

  /** The iteration of flip `n`, or `iterations` while flip `n` has not happened. */
  function Until(flips: seq<Flip>, n: nat, iterations: nat): nat
    requires n <= |flips|
  {
    if n < |flips| then flips[n].poll else iterations
  }

  /** Every complete iteration from `lo` up to `hi` read a `current_time` before deadline `n + 1`. */
  ghost predicate NotYetDue(clock: seq<int>, frameTicks: nat, n: nat, lo: nat, hi: nat)
    requires |clock| > 0
  {
    forall j :: lo <= j < hi && 2 + 2 * j < |clock| ==> FlipReading(clock, j) < Deadline(clock[0], frameTicks, n + 1)
  }

  /**
    A presentation trace of the first `iterations` loop iterations: flips
    alternate starting with `img1`, each one happens in a distinct, later
    iteration than the one before, the `n`-th flip's `current_time` reading
    had reached the `n`-th deadline after the start reading (no flip is
    early), and every complete iteration between two flips read a time
    before the next deadline (no due flip is skipped or postponed).
   */
  ghost predicate FlipTrace(flips: seq<Flip>, clock: seq<int>, frameTicks: nat, iterations: nat)
  {
    && |clock| > 0
    && (forall n :: 0 <= n < |flips| ==> flips[n].frame == FrameOf(n))
    && (forall n :: 0 <= n < |flips| ==>
          && flips[n].poll < iterations
          && 2 + 2 * flips[n].poll < |clock|
          && flips[n].at == FlipReading(clock, flips[n].poll)
          && flips[n].at >= Deadline(clock[0], frameTicks, n + 1))
    && (forall n, m :: 0 <= n < m < |flips| ==> flips[n].poll < flips[m].poll)
    && (forall n :: 0 <= n <= |flips| ==>
          NotYetDue(clock, frameTicks, n, After(flips, n), Until(flips, n, iterations)))
  }

  /** An iteration whose flip test reached the next deadline extends the trace by the next image. */
  lemma ExtendTrace(flips: seq<Flip>, clock: seq<int>, frameTicks: nat, p: nat)
    requires FlipTrace(flips, clock, frameTicks, p)
    requires 2 + 2 * p < |clock|
    requires FlipReading(clock, p) >= Deadline(clock[0], frameTicks, |flips| + 1)
    ensures FlipTrace(flips + [Flip(FrameOf(|flips|), FlipReading(clock, p), p)], clock, frameTicks, p + 1)
  {
    var flips' := flips + [Flip(FrameOf(|flips|), FlipReading(clock, p), p)];
    forall n | 0 <= n <= |flips'|
      ensures NotYetDue(clock, frameTicks, n, After(flips', n), Until(flips', n, p + 1))
    {
      if n <= |flips| {
        assert After(flips', n) == After(flips, n);
        assert Until(flips', n, p + 1) == Until(flips, n, p);
      }
    }
  }

  /** An iteration whose flip test read a time before the next deadline leaves the trace as it is. */
  lemma WaitTrace(flips: seq<Flip>, clock: seq<int>, frameTicks: nat, p: nat)
    requires FlipTrace(flips, clock, frameTicks, p)
    requires 2 + 2 * p < |clock|
    requires FlipReading(clock, p) < Deadline(clock[0], frameTicks, |flips| + 1)
    ensures FlipTrace(flips, clock, frameTicks, p + 1)
  {
    forall n | 0 <= n <= |flips|
      ensures NotYetDue(clock, frameTicks, n, After(flips, n), Until(flips, n, p + 1))
    {
      assert NotYetDue(clock, frameTicks, n, After(flips, n), Until(flips, n, p));
    }
  }

  /** An iteration cut short before its flip test leaves the trace as it is. */
  lemma WidenTrace(flips: seq<Flip>, clock: seq<int>, frameTicks: nat, p: nat)
    requires FlipTrace(flips, clock, frameTicks, p)
    requires 2 + 2 * p >= |clock|
    ensures FlipTrace(flips, clock, frameTicks, p + 1)
  {
    forall n | 0 <= n <= |flips|
      ensures NotYetDue(clock, frameTicks, n, After(flips, n), Until(flips, n, p + 1))
    {
      assert NotYetDue(clock, frameTicks, n, After(flips, n), Until(flips, n, p));
    }
  }

  /**
    The presentation is determined by the clock: two traces of the same
    iterations on the same readings are the same trace, since each flip
    happens in the first iteration after the previous one whose
    `current_time` reached its deadline.
   */
  lemma FlipTraceUnique(a: seq<Flip>, b: seq<Flip>, clock: seq<int>, frameTicks: nat, iterations: nat)
    requires FlipTrace(a, clock, frameTicks, iterations)
    requires FlipTrace(b, clock, frameTicks, iterations)
    ensures a == b
  {
    if |a| < |b| {
      AgreeUpTo(a, b, clock, frameTicks, iterations, |a|);
      NoMissedFlip(a, b, clock, frameTicks, iterations);
    } else if |b| < |a| {
      AgreeUpTo(b, a, clock, frameTicks, iterations, |b|);
      NoMissedFlip(b, a, clock, frameTicks, iterations);
    } else {
      AgreeUpTo(a, b, clock, frameTicks, iterations, |a|);
    }
  }

  /** Two traces of the same readings agree on their first `k` flips. */
  lemma {:induction false} AgreeUpTo(a: seq<Flip>, b: seq<Flip>, clock: seq<int>, frameTicks: nat, iterations: nat,
                                    k: nat)
    requires FlipTrace(a, clock, frameTicks, iterations)
    requires FlipTrace(b, clock, frameTicks, iterations)
    requires k <= |a| && k <= |b|
    ensures forall n :: 0 <= n < k ==> a[n] == b[n]
    decreases k
  {
    if k > 0 {
      var n := k - 1;
      AgreeUpTo(a, b, clock, frameTicks, iterations, n);
      assert After(a, n) == After(b, n);
      if a[n].poll < b[n].poll {
        assert false;
      } else if b[n].poll < a[n].poll {
        assert false;
      }
    }
  }

  /** A trace that agrees with another on all its flips is not shorter: the other's next flip was due. */
  lemma NoMissedFlip(a: seq<Flip>, b: seq<Flip>, clock: seq<int>, frameTicks: nat, iterations: nat)
    requires FlipTrace(a, clock, frameTicks, iterations)
    requires FlipTrace(b, clock, frameTicks, iterations)
    requires |a| <= |b|
    requires forall n :: 0 <= n < |a| ==> a[n] == b[n]
    ensures |b| == |a|
  {
    var k := |a|;
    assert After(a, k) == After(b, k);
    if k < |b| {
      assert false;
    }
  }

  /**
    No flip comes early: the `n`-th flip (counting from 0) happened at a
    reading at least `n + 1` frames after the start, so `frame_count` frames
    never take less than `frame_count * frame_duration`.
   */
  lemma FlipsNeverEarly(flips: seq<Flip>, clock: seq<int>, frameTicks: nat, iterations: nat)
    requires FlipTrace(flips, clock, frameTicks, iterations)
    ensures forall n :: 0 <= n < |flips| ==> flips[n].at - clock[0] >= (n + 1) * frameTicks
    ensures |flips| > 0 ==> |flips| * frameTicks <= flips[|flips| - 1].at - clock[0]
    ensures |flips| <= iterations
  {
    forall n | 0 <= n < |flips|
      ensures flips[n].at - clock[0] >= (n + 1) * frameTicks
    {
      DeadlineClosedForm(clock[0], frameTicks, n + 1);
    }
    if |flips| > 0 {
      PollsBound(flips, clock, frameTicks, iterations, |flips| - 1);
    }
  }

  lemma {:induction false} PollsBound(flips: seq<Flip>, clock: seq<int>, frameTicks: nat, iterations: nat, n: nat)
    requires FlipTrace(flips, clock, frameTicks, iterations)
    requires n < |flips|
    ensures flips[n].poll >= n
    decreases n
  {
    if n > 0 {
      PollsBound(flips, clock, frameTicks, iterations, n - 1);
      assert flips[n - 1].poll < flips[n].poll;
    }
  }

  /**
    One iteration on a steady clock keeps the reading of the last flip test
    between the current deadline and the next one: additive scheduling
    never falls behind by a whole frame.
   */
  lemma SteadyStep(clock: seq<int>, frameTicks: nat, last: int, end: int, p: nat)
    requires SteadyClock(clock, frameTicks)
    requires 2 * p + 2 < |clock|
    requires last <= clock[2 * p] < last + frameTicks
    requires clock[2 * p + 1] < end
    ensures last <= clock[2 * p + 2] < end + frameTicks
    ensures clock[2 * p + 2] < last + 2 * frameTicks
  {
    SteadyTwoSteps(clock, frameTicks, 2 * p);
  }

  /** On a steady clock a completed phase shows within one flip of the expected count. */
  lemma SteadyFinish(clock: seq<int>, frameTicks: nat, duration: int, count: nat, last: int, p: nat)
    requires frameTicks > 0 && duration >= 0 && |clock| > 0
    requires SteadyClock(clock, frameTicks)
    requires 2 * p + 1 < |clock|
    requires last == Deadline(clock[0], frameTicks, count)
    requires last <= clock[2 * p] < last + frameTicks
    requires p > 0 ==> last < clock[0] + duration + frameTicks
    requires p == 0 ==> count == 0
    requires clock[2 * p + 1] >= clock[0] + duration
    ensures Abs(count - ExpectedFrames(duration, frameTicks)) <= 1
  {
    DeadlineClosedForm(clock[0], frameTicks, count);
    assert 0 <= Gap(clock, 2 * p) && 2 * Gap(clock, 2 * p) <= frameTicks;
    assert count * frameTicks + 2 * frameTicks == (count + 2) * frameTicks;
    NearExpected(count, frameTicks, duration);
  }

  /** The loop variables of `show_flashing_checkerboard`, plus the presentation trace and the iteration count. */
  datatype LoopState = LoopState(currentImage: bool, lastFlipTime: int, frameCount: nat, flips: seq<Flip>, polls: nat)

  /**
    The flip test of one iteration (mvast_fmri_task.py:539-550): present
    the current image when `now` has reached one frame past the last flip
    time, then toggle the image and move the deadline forward by exactly one
    frame, counting the flip; otherwise change nothing.
   */
  function FlipTest(st: LoopState, now: int, frameTicks: nat, p: nat): LoopState
  {
    if now >= st.lastFlipTime + frameTicks then
      LoopState(!st.currentImage, st.lastFlipTime + frameTicks, st.frameCount + 1,
                st.flips + [Flip(Shown(st.currentImage), now, p)], st.polls)
    else st
  }

  /** What holds of the loop variables before every loop test. */
  ghost predicate LoopInvariant(st: LoopState, clock: seq<int>, batches: seq<seq<Event>>, escapeCancels: bool,
                                frameTicks: nat, end: int)
  {
    && 2 * st.polls < |clock|
    && st.frameCount == |st.flips| <= st.polls <= |batches|
    && Shown(st.currentImage) == FrameOf(st.frameCount)
    && st.lastFlipTime == Deadline(clock[0], frameTicks, st.frameCount)
    && FlipTrace(st.flips, clock, frameTicks, st.polls)
    && (forall j :: 0 <= j < st.polls ==> !BatchCancels(batches[j], escapeCancels))
    && (forall j :: 0 <= j < st.polls ==> 1 + 2 * j < |clock| && CheckReading(clock, j) < end)
    && SteadyBounds(st, clock, frameTicks, end)
  }

  /** The part of the loop invariant that only a steady clock guarantees. */
  ghost predicate SteadyBounds(st: LoopState, clock: seq<int>, frameTicks: nat, end: int)
  {
    2 * st.polls < |clock| && SteadyClock(clock, frameTicks) ==>
      && st.lastFlipTime <= clock[2 * st.polls] < st.lastFlipTime + frameTicks
      && (st.polls > 0 ==> st.lastFlipTime < end + frameTicks)
      && (forall n :: 0 <= n < |st.flips| ==> st.flips[n].at < Deadline(clock[0], frameTicks, n + 2))
  }

  /** One full iteration that neither cancelled nor ran out of input keeps the loop invariant. */
  lemma IterationKeepsInvariant(st: LoopState, clock: seq<int>, batches: seq<seq<Event>>, escapeCancels: bool,
                                frameTicks: nat, end: int)
    requires frameTicks > 0
    requires LoopInvariant(st, clock, batches, escapeCancels, frameTicks, end)
    requires 2 + 2 * st.polls < |clock| && CheckReading(clock, st.polls) < end
    requires st.polls < |batches| && !BatchCancels(batches[st.polls], escapeCancels)
    ensures LoopInvariant(FlipTest(st.(polls := st.polls + 1), FlipReading(clock, st.polls), frameTicks, st.polls),
                          clock, batches, escapeCancels, frameTicks, end)
  {
    var now := FlipReading(clock, st.polls);
    if now >= st.lastFlipTime + frameTicks {
      assert FlipTest(st.(polls := st.polls + 1), now, frameTicks, st.polls)
          == LoopState(!st.currentImage, st.lastFlipTime + frameTicks, st.frameCount + 1,
                       st.flips + [Flip(Shown(st.currentImage), now, st.polls)], st.polls + 1);
      FlipKeepsInvariant(st, clock, batches, escapeCancels, frameTicks, end);
    } else {
      assert FlipTest(st.(polls := st.polls + 1), now, frameTicks, st.polls) == st.(polls := st.polls + 1);
      WaitKeepsInvariant(st, clock, batches, escapeCancels, frameTicks, end);
    }
  }

  /** An iteration whose flip test reads a time before the deadline changes nothing but the iteration count. */
  lemma WaitKeepsInvariant(st: LoopState, clock: seq<int>, batches: seq<seq<Event>>, escapeCancels: bool,
                           frameTicks: nat, end: int)
    requires frameTicks > 0
    requires LoopInvariant(st, clock, batches, escapeCancels, frameTicks, end)
    requires 2 + 2 * st.polls < |clock| && CheckReading(clock, st.polls) < end
    requires st.polls < |batches| && !BatchCancels(batches[st.polls], escapeCancels)
    requires FlipReading(clock, st.polls) < st.lastFlipTime + frameTicks
    ensures LoopInvariant(st.(polls := st.polls + 1), clock, batches, escapeCancels, frameTicks, end)
  {
    var p := st.polls;
    WaitTrace(st.flips, clock, frameTicks, p);
    if SteadyClock(clock, frameTicks) {
      SteadyStep(clock, frameTicks, st.lastFlipTime, end, p);
    }
  }

  /** An iteration whose flip test reads a time at or past the deadline presents the next image and advances the deadline. */
  lemma FlipKeepsInvariant(st: LoopState, clock: seq<int>, batches: seq<seq<Event>>, escapeCancels: bool,
                           frameTicks: nat, end: int)
    requires frameTicks > 0
    requires LoopInvariant(st, clock, batches, escapeCancels, frameTicks, end)
    requires 2 + 2 * st.polls < |clock| && CheckReading(clock, st.polls) < end
    requires st.polls < |batches| && !BatchCancels(batches[st.polls], escapeCancels)
    requires FlipReading(clock, st.polls) >= st.lastFlipTime + frameTicks
    ensures LoopInvariant(LoopState(!st.currentImage, st.lastFlipTime + frameTicks, st.frameCount + 1,
                                    st.flips + [Flip(Shown(st.currentImage), FlipReading(clock, st.polls), st.polls)],
                                    st.polls + 1),
                          clock, batches, escapeCancels, frameTicks, end)
  {
    var p := st.polls;
    FlipKeepsSteady(st, clock, frameTicks, end);
    ExtendTrace(st.flips, clock, frameTicks, p);
    ToggleNext(st.currentImage, st.frameCount);
  }

  /** A flip keeps the steady-clock bounds: the new flip lands less than two frames after the old deadline. */
  lemma FlipKeepsSteady(st: LoopState, clock: seq<int>, frameTicks: nat, end: int)
    requires 2 + 2 * st.polls < |clock| && CheckReading(clock, st.polls) < end
    requires st.lastFlipTime == Deadline(clock[0], frameTicks, |st.flips|)
    requires SteadyBounds(st, clock, frameTicks, end)
    requires FlipReading(clock, st.polls) >= st.lastFlipTime + frameTicks
    ensures SteadyBounds(LoopState(!st.currentImage, st.lastFlipTime + frameTicks, st.frameCount + 1,
                                   st.flips + [Flip(Shown(st.currentImage), FlipReading(clock, st.polls), st.polls)],
                                   st.polls + 1),
                         clock, frameTicks, end)
  {
    if SteadyClock(clock, frameTicks) {
      SteadyStep(clock, frameTicks, st.lastFlipTime, end, st.polls);
      assert Deadline(clock[0], frameTicks, |st.flips| + 2) == st.lastFlipTime + 2 * frameTicks;
    }
  }

  /**
    What `show_flashing_checkerboard` promises of a run `r` on the given
    clock readings and event batches:
    - the images alternate starting with `img1`, and a flip happens exactly
      in the iterations whose `current_time` reading has reached the next
      deadline, at most once per iteration (`FlipTrace`; by
      `FlipTraceUnique` this fixes the whole presentation);
    - `frame_count` counts the flips, and the deadline advanced by exactly
      one frame per flip, so `last_flip_time == start + frame_count * frame`
      (no drift, whatever the loop latency);
    - every consumed batch but a cancelling last one is free of QUIT and
      cancelling ESC, and every loop test read a time before the end;
    - it completes only at a loop test reading at or past `start + duration`,
      and is cancelled only by the last batch it consumed, with no flip in
      that iteration;
    - it is left pending only when the readings ran out, or when the batches
      ran out at a loop test still before the end;
    - the frame-count warning is printed exactly when a completed phase is
      more than two flips off `int(duration * frequency * 2)`; it never
      changes the verdict;
    - on a steady clock every flip comes less than one frame after its
      deadline, a completed phase ends with its last flip-test reading between
      the current deadline and the next one, and, for a non-negative
      duration, it is within one flip of the expectation and never warns.
   */
  ghost predicate FlashContract(r: FlashRun, frameTicks: nat, duration: int, clock: seq<int>,
                                batches: seq<seq<Event>>, escapeCancels: bool)
    requires frameTicks > 0
  {
    && r.frameCount == |r.flips| <= r.polls <= |batches|
    && (|clock| == 0 ==> r.verdict == Pending && r.flips == [])
    && (r.verdict == Cancelled ==> r.polls > 0)
    && (|clock| > 0 ==> r.lastFlipTime == Deadline(clock[0], frameTicks, r.frameCount))
    && (|clock| > 0 ==>
          FlipTrace(r.flips, clock, frameTicks, if r.verdict == Cancelled then r.polls - 1 else r.polls))
    && (forall j :: 0 <= j < r.polls ==>
          (BatchCancels(batches[j], escapeCancels) <==> r.verdict == Cancelled && j == r.polls - 1))
    && (forall j :: 0 <= j < r.polls ==> 1 + 2 * j < |clock| && CheckReading(clock, j) < clock[0] + duration)
    && (r.verdict == Completed ==>
          1 + 2 * r.polls < |clock| && CheckReading(clock, r.polls) >= clock[0] + duration)
    && (r.verdict == Pending ==>
          |clock| <= 2 * r.polls + 1 || (r.polls == |batches| && CheckReading(clock, r.polls) < clock[0] + duration))
    && (r.warned <==> r.verdict == Completed && Abs(r.frameCount - ExpectedFrames(duration, frameTicks)) > 2)
    && (r.verdict == Completed && duration >= 0 && SteadyClock(clock, frameTicks) ==>
          Abs(r.frameCount - ExpectedFrames(duration, frameTicks)) <= 1 && !r.warned)
    && (|clock| > 0 && SteadyClock(clock, frameTicks) ==>
          forall n :: 0 <= n < |r.flips| ==> r.flips[n].at < Deadline(clock[0], frameTicks, n + 2))
    && (r.verdict == Completed && 1 + 2 * r.polls < |clock| && SteadyClock(clock, frameTicks) ==>
          r.lastFlipTime <= clock[2 * r.polls] < r.lastFlipTime + frameTicks)
  }

  /** The run reported when the loop stops in state `st`; `extra` counts a batch consumed by an unfinished iteration. */
  function Report(st: LoopState, verdict: Verdict, extra: bool, duration: int, frameTicks: nat): FlashRun
    requires frameTicks > 0
  {
    FlashRun(verdict, st.flips, st.frameCount, st.lastFlipTime, if extra then st.polls + 1 else st.polls,
             verdict == Completed && Abs(st.frameCount - ExpectedFrames(duration, frameTicks)) > 2)
  }

  /** Each way out of the loop yields a run that keeps the contract. */
  lemma ReportKeepsContract(st: LoopState, verdict: Verdict, extra: bool, frameTicks: nat, duration: int,
                            clock: seq<int>, batches: seq<seq<Event>>, escapeCancels: bool)
    requires frameTicks > 0 && |clock| > 0
    requires LoopInvariant(st, clock, batches, escapeCancels, frameTicks, clock[0] + duration)
    requires verdict == Completed ==>
      !extra && 1 + 2 * st.polls < |clock| && CheckReading(clock, st.polls) >= clock[0] + duration
    requires verdict == Cancelled ==>
      && extra && st.polls < |batches| && BatchCancels(batches[st.polls], escapeCancels)
      && 1 + 2 * st.polls < |clock| && CheckReading(clock, st.polls) < clock[0] + duration
    requires verdict == Pending && !extra ==>
      1 + 2 * st.polls >= |clock| || (st.polls >= |batches| && CheckReading(clock, st.polls) < clock[0] + duration)
    requires verdict == Pending && extra ==>
      && st.polls < |batches| && !BatchCancels(batches[st.polls], escapeCancels)
      && 1 + 2 * st.polls < |clock| && CheckReading(clock, st.polls) < clock[0] + duration
      && 2 + 2 * st.polls >= |clock|
    ensures FlashContract(Report(st, verdict, extra, duration, frameTicks), frameTicks, duration, clock, batches,
                          escapeCancels)
  {
    if extra {
      if verdict == Cancelled {
        assert FlipTrace(st.flips, clock, frameTicks, st.polls);
      } else {
        WidenTrace(st.flips, clock, frameTicks, st.polls);
      }
    }
    if verdict == Completed && duration >= 0 && SteadyClock(clock, frameTicks) {
      SteadyFinish(clock, frameTicks, duration, st.frameCount, st.lastFlipTime, st.polls);
    }
  }

  /** `show_flashing_checkerboard` from the start-time reading on; see `FlashContract` for what it guarantees. */
  method ShowFlashing(frameTicks: nat, duration: int, clock: seq<int>, batches: seq<seq<Event>>,
                      escapeCancels: bool)
    returns (r: FlashRun)
    requires frameTicks > 0
    ensures FlashContract(r, frameTicks, duration, clock, batches, escapeCancels)
  {
    if |clock| == 0 {
      return FlashRun(Pending, [], 0, 0, 0, false);
    }
    var start := clock[0];
    var end := start + duration;
    var st := LoopState(true, start, 0, [], 0);
    var verdict := Completed;
    var extra := false;
    while 1 + 2 * st.polls < |clock| && CheckReading(clock, st.polls) < end
      invariant LoopInvariant(st, clock, batches, escapeCancels, frameTicks, end)
      decreases |clock| - 2 * st.polls
    {
      if st.polls >= |batches| {
        verdict := Pending;
        break;
      }
      if BatchCancels(batches[st.polls], escapeCancels) {
        verdict, extra := Cancelled, true;
        break;
      }
      if 2 + 2 * st.polls >= |clock| {
        verdict, extra := Pending, true;
        break;
      }
      var currentTime := FlipReading(clock, st.polls);
      IterationKeepsInvariant(st, clock, batches, escapeCancels, frameTicks, end);
      st := FlipTest(st.(polls := st.polls + 1), currentTime, frameTicks, st.polls);
    }
    if verdict == Completed && 1 + 2 * st.polls >= |clock| {
      verdict := Pending;
    }
    ReportKeepsContract(st, verdict, extra, frameTicks, duration, clock, batches, escapeCancels);
    r := Report(st, verdict, extra, duration, frameTicks);
  }
}

=== FILE: session.dfy ===
/**
  The session sequencer: the body of `run_task` (mvast_fmri_task.py:658-801)
  with the image loading, logging and drawing taken out.

  The task checks that its images are ready, builds the start gate from the
  configuration, waits for the start signal, then runs the instruction
  screen (the source always has one) and five cycles of a fixation phase followed by
  a flashing checkerboard phase. The first phase that does not complete ends
  the session. Each phase's verdict is an input here; the phase loops
  themselves are modelled in `StaticPhase` and `FlashScheduler`.
 */
module Session {
  import opened Events
  import opened Config
  import StartGate
  import FlashScheduler

  /** Clock ticks per second: one tick is a microsecond. */
  const TicksPerSecond: nat := 1_000_000
  const NumCycles: nat := 5
  const FixationSeconds: nat := 20
  const CheckerboardSeconds: nat := 20
  const FlashHz: nat := 8
  /** Half a flash period, `1.0 / frequency / 2.0` seconds, in ticks. */
  const FrameTicks: nat := TicksPerSecond / FlashHz / 2
  /** The drift above which the session warns, in seconds. */
  const DriftTolerance: real := 0.1

  datatype Phase = Instruction | Fixation(cycle: nat) | Checkerboard(cycle: nat)

  /** The fixation and checkerboard phases of cycles 1 to `n`, in order. */
  function Cycles(n: nat): (p: seq<Phase>)
    ensures |p| == 2 * n
    ensures forall c :: 1 <= c <= n ==> p[2 * c - 2] == Fixation(c) && p[2 * c - 1] == Checkerboard(c)
  {
    if n == 0 then [] else Cycles(n - 1) + [Fixation(n), Checkerboard(n)]
  }

  /**
    The phases a session runs when nothing cancels it: the instruction
    screen exactly when one is ready, then fixation and checkerboard for
    each cycle from 1 to `NumCycles`, in that order.
   */
  function Plan(withInstruction: bool): (p: seq<Phase>)
    ensures |p| == (if withInstruction then 1 else 0) + 2 * NumCycles
    ensures withInstruction ==> p[0] == Instruction
    ensures forall i :: (if withInstruction then 1 else 0) <= i < |p| ==> p[i] != Instruction
    ensures var off := if withInstruction then 1 else 0;
      forall c :: 1 <= c <= NumCycles ==> p[off + 2 * c - 2] == Fixation(c) && p[off + 2 * c - 1] == Checkerboard(c)
  {
    var cycles := Cycles(NumCycles);
    NoInstructionInCycles(NumCycles);
    if withInstruction then [Instruction] + cycles else cycles
  }

  lemma {:induction false} NoInstructionInCycles(n: nat)
    ensures forall i :: 0 <= i < |Cycles(n)| ==> Cycles(n)[i] != Instruction
  {
    if n > 0 {
      NoInstructionInCycles(n - 1);
    }
  }

  /**
    Runs `plan` in order against the verdicts of the phases run: the trace
    holds every phase started, and the first verdict other than `Completed`
    ends the run with that verdict. Too few verdicts leave it `Pending`.
   */
  function RunPhases(plan: seq<Phase>, outcomes: seq<Verdict>): (r: (seq<Phase>, Verdict))
    ensures |r.0| <= |plan| && r.0 == plan[..|r.0|]
    ensures |r.0| <= |outcomes|
    ensures r.1 == Pending ==> |r.0| == |outcomes| || (0 < |r.0| && outcomes[|r.0| - 1] == Pending)
    ensures forall i :: 0 <= i < |r.0| - 1 ==> outcomes[i] == Completed
    ensures r.1 == Completed <==> |r.0| == |plan| && forall i :: 0 <= i < |plan| ==> i < |outcomes| && outcomes[i] == Completed
    ensures r.1 == Cancelled ==> |r.0| > 0 && outcomes[|r.0| - 1] == Cancelled
    decreases |plan|
  {
    if plan == [] then ([], Completed)
    else if outcomes == [] then ([], Pending)
    else if outcomes[0] != Completed then ([plan[0]], outcomes[0])
    else
      var (trace, verdict) := RunPhases(plan[1..], outcomes[1..]);
      assert forall i :: 1 <= i < |outcomes| ==> outcomes[1..][i - 1] == outcomes[i];
      assert [plan[0]] + plan[1..][..|trace|] == plan[..|trace| + 1];
      ([plan[0]] + trace, verdict)
  }

  /** What `run_task` found out before the gate: which images could be prepared. */
  datatype Images = Images(checkerboards: bool, fixation: bool, instruction: bool)

  /** The report of one session. */
  datatype TaskReport = TaskReport(
    verdict: Verdict,
    gateRan: bool,
    trace: seq<Phase>,
    expectedSeconds: real,
    driftWarned: bool)

  /** The expected session length: every cycle, plus the configured instruction time. */
  function ExpectedSeconds(instructionSeconds: real): real
  {
    (NumCycles * (FixationSeconds + CheckerboardSeconds)) as real + instructionSeconds
  }

  function AbsReal(x: real): real
  {
    if x < 0.0 then -x else x
  }

  /** The timing check of `run_task`: both phase durations are positive. */
  predicate TimingValid()
  {
    CheckerboardSeconds > 0 && FixationSeconds > 0
  }

  /**
    `run_task` after image loading. A missing checkerboard or fixation image
    ends it before the gate; a gate that does not start ends it with the
    gate's verdict; otherwise the plan runs, and a completed session warns
    when the measured length is more than `DriftTolerance` away from the
    expected one.
   */
  function RunTask(images: Images, instructionSeconds: real, gate: Verdict, outcomes: seq<Verdict>,
                   measuredSeconds: real): (r: TaskReport)
  {
    if !images.checkerboards || !images.fixation then TaskReport(Cancelled, false, [], 0.0, false)
    else if !TimingValid() then TaskReport(Cancelled, false, [], 0.0, false)
    else if gate != Completed then TaskReport(gate, true, [], 0.0, false)
    else
      var (trace, verdict) := RunPhases(Plan(images.instruction), outcomes);
      var expected := ExpectedSeconds(instructionSeconds);
      TaskReport(verdict, true, trace, expected,
                 verdict == Completed && AbsReal(measuredSeconds - expected) > DriftTolerance)
  }

  /** The number of phases of each kind in a trace. */
  function CountFixations(t: seq<Phase>): nat
  {
    if t == [] then 0 else (if t[0].Fixation? then 1 else 0) + CountFixations(t[1..])
  }

  function CountCheckerboards(t: seq<Phase>): nat
  {
    if t == [] then 0 else (if t[0].Checkerboard? then 1 else 0) + CountCheckerboards(t[1..])
  }

  lemma {:induction false} CyclesCounts(n: nat)
    ensures CountFixations(Cycles(n)) == n && CountCheckerboards(Cycles(n)) == n
  {
    if n > 0 {
      CyclesCounts(n - 1);
      CountsAppend(Cycles(n - 1), [Fixation(n), Checkerboard(n)]);
      assert [Fixation(n), Checkerboard(n)][1..] == [Checkerboard(n)];
      assert CountFixations([Checkerboard(n)]) == 0 && CountCheckerboards([Checkerboard(n)]) == 1;
    }
  }

  lemma {:induction false} CountsAppend(a: seq<Phase>, b: seq<Phase>)
    ensures CountFixations(a + b) == CountFixations(a) + CountFixations(b)
    ensures CountCheckerboards(a + b) == CountCheckerboards(a) + CountCheckerboards(b)
    decreases |a|
  {
    if a != [] {
      CountsAppend(a[1..], b);
      assert (a + b)[1..] == a[1..] + b;
    } else {
      assert a + b == b;
    }
  }

  /** The plan holds exactly `NumCycles` fixation and `NumCycles` checkerboard phases. */
  lemma PlanCounts(withInstruction: bool)
    ensures CountFixations(Plan(withInstruction)) == NumCycles
    ensures CountCheckerboards(Plan(withInstruction)) == NumCycles
  {
    CyclesCounts(NumCycles);
    CountsAppend([Instruction], Cycles(NumCycles));
  }

  lemma {:induction false} RunPhasesAllComplete(plan: seq<Phase>, outcomes: seq<Verdict>)
    requires |outcomes| >= |plan|
    requires forall i :: 0 <= i < |plan| ==> outcomes[i] == Completed
    ensures RunPhases(plan, outcomes) == (plan, Completed)
    decreases |plan|
  {
    if plan != [] {
      RunPhasesAllComplete(plan[1..], outcomes[1..]);
      assert [plan[0]] + plan[1..] == plan;
    }
  }

  /**
    A session that starts and in which no phase is cancelled runs exactly
    the plan and completes.
   */
  lemma FullSessionFollowsPlan(images: Images, instructionSeconds: real, outcomes: seq<Verdict>, measuredSeconds: real)
    requires images.checkerboards && images.fixation
    requires |outcomes| >= |Plan(images.instruction)|
    requires forall i :: 0 <= i < |Plan(images.instruction)| ==> outcomes[i] == Completed
    ensures RunTask(images, instructionSeconds, Completed, outcomes, measuredSeconds).verdict == Completed
    ensures RunTask(images, instructionSeconds, Completed, outcomes, measuredSeconds).trace == Plan(images.instruction)
  {
    RunPhasesAllComplete(Plan(images.instruction), outcomes);
  }

  /**
    A phase that does not complete ends the session: nothing after it runs
    and the session reports that phase's verdict.
   */
  lemma CancelStopsSession(images: Images, instructionSeconds: real, outcomes: seq<Verdict>, measuredSeconds: real, k: nat)
    requires images.checkerboards && images.fixation
    requires k < |Plan(images.instruction)| && k < |outcomes|
    requires forall i :: 0 <= i < k ==> outcomes[i] == Completed
    requires outcomes[k] != Completed
    ensures RunTask(images, instructionSeconds, Completed, outcomes, measuredSeconds).trace == Plan(images.instruction)[..k + 1]
    ensures RunTask(images, instructionSeconds, Completed, outcomes, measuredSeconds).verdict == outcomes[k]
    ensures !RunTask(images, instructionSeconds, Completed, outcomes, measuredSeconds).driftWarned
  {
    RunPhasesStopsAt(Plan(images.instruction), outcomes, k);
  }

  lemma {:induction false} RunPhasesStopsAt(plan: seq<Phase>, outcomes: seq<Verdict>, k: nat)
    requires k < |plan| && k < |outcomes|
    requires forall i :: 0 <= i < k ==> outcomes[i] == Completed
    requires outcomes[k] != Completed
    ensures RunPhases(plan, outcomes) == (plan[..k + 1], outcomes[k])
    decreases k
  {
    if k > 0 {
      RunPhasesStopsAt(plan[1..], outcomes[1..], k - 1);
      assert [plan[0]] + plan[1..][..k] == plan[..k + 1];
    }
  }

  /**
    The session never starts a phase unless the images are ready and the
    gate started it; with ready images the gate always runs, so the timing
    check in between never fails.
   */
  lemma NoPhaseWithoutStart(images: Images, instructionSeconds: real, gate: Verdict, outcomes: seq<Verdict>,
                            measuredSeconds: real)
    requires !images.checkerboards || !images.fixation || gate != Completed
    ensures RunTask(images, instructionSeconds, gate, outcomes, measuredSeconds).trace == []
    ensures RunTask(images, instructionSeconds, gate, outcomes, measuredSeconds).verdict != Completed
    ensures RunTask(images, instructionSeconds, gate, outcomes, measuredSeconds).gateRan
        <==> images.checkerboards && images.fixation
  {
  }

  /**
    The drift warning is raised exactly for a completed session whose
    measured length is off by more than a tenth of a second; it never
    changes the verdict.
   */
  lemma DriftWarning(images: Images, instructionSeconds: real, outcomes: seq<Verdict>, measuredSeconds: real)
    requires images.checkerboards && images.fixation
    ensures var r := RunTask(images, instructionSeconds, Completed, outcomes, measuredSeconds);
      && r.expectedSeconds == 200.0 + instructionSeconds
      && (r.driftWarned <==>
            r.verdict == Completed && (measuredSeconds > r.expectedSeconds + 0.1 || measuredSeconds < r.expectedSeconds - 0.1))
      && r.verdict == RunPhases(Plan(images.instruction), outcomes).1
  {
  }

  /**
    With the default ten-second instruction screen a session is expected
    to last 210 seconds, and each checkerboard phase to show 320 frames at
    the 62500-tick (125 ms) frame duration.
   */
  lemma DefaultTiming()
    ensures ExpectedSeconds(DefaultDuration) == 210.0
    ensures FrameTicks == 62_500
    ensures FlashScheduler.ExpectedFrames(CheckerboardSeconds * TicksPerSecond, FrameTicks) == 320
  {
  }

  /** The trigger character `wait_for_start` reads: "=" when the key is missing. */
  function TriggerEntry(cfg: Record): Json
  {
    GetOr(cfg, "trigger_character", JStr("="))
  }

  /**
    The start gate `run_task` builds from the configuration. A trigger
    handler exists exactly when `trigger_character` is truthy, and building
    it lowers the character, which raises unless it is text; lowering a
    start mode that is not text raises too. Both failures, and a start mode
    the gate does not know, yield no gate.
   */
  function GateOf(cfg: Record): (g: Option<StartGate.GateSetup>)
    ensures g.Some? <==>
      && ModeEntry(cfg).JStr? && ModeOf(Lower(ModeEntry(cfg).s)).Some?
      && (Truthy(Get(cfg, "trigger_character")) ==> TriggerEntry(cfg).JStr?)
    ensures g.Some? ==> Some(g.value.mode) == ModeOf(Lower(ModeEntry(cfg).s))
    ensures g.Some? ==> g.value.triggerChar == (if TriggerEntry(cfg).JStr? then TriggerEntry(cfg).s else [])
    ensures g.Some? ==> (g.value.hasHandler <==> Truthy(Get(cfg, "trigger_character")))
    ensures g.Some? ==> g.value.escapeCancels
  {
    var trigger := TriggerEntry(cfg);
    var mode := ModeEntry(cfg);
    var handler := Truthy(Get(cfg, "trigger_character"));
    if !mode.JStr? || (handler && !trigger.JStr?) then None
    else
      match ModeOf(Lower(mode.s))
      case None => None
      case Some(m) => Some(StartGate.GateSetup(m, if trigger.JStr? then trigger.s else [], true, handler))
  }

  /**
    The configuration written when no file exists gives the gate of the
    default set-up: either start signal, trigger "=", a trigger handler, and
    ESC cancelling.
   */
  lemma DefaultGate()
    ensures Normalise(None).Success?
    ensures GateOf(Normalise(None).value) == Some(StartGate.GateSetup(Both, "=", true, true))
  {
    DefaultsNormalise();
    ReplacementsAreLowerCase();
  }

  /**
    Every successfully loaded configuration yields a start gate in one of
    the three known modes exactly when its trigger character is text or
    falsy (`load_config` does not validate it).
   */
  lemma LoadedConfigHasGate(file: Option<Record>)
    requires Normalise(file).Success?
    ensures GateOf(Normalise(file).value).Some?
      <==> !Truthy(Get(Normalise(file).value, "trigger_character")) || TriggerEntry(Normalise(file).value).JStr?
  {
    NormaliseIsStable(Merge(file));
  }
}

=== FILE: start_gate.dfy ===
/**
  The start gate: the event loop of `wait_for_start`
  (mvast_fmri_task.py:631-654).

  Each iteration reads one batch of events, looking for the first decisive
  one, and only if the batch decided nothing consults the trigger queue
  (in trigger or both mode, when a trigger handler exists). The reader
  thread is replaced by the items it put into the queue before each
  iteration's queue check.
 */
module StartGate {
  import opened Events
  import opened Config
  import TriggerQueue

  /** Which signal started the session. */
  datatype StartSignal = SpaceBar | TriggerKey | QueuedTrigger

  /** What `wait_for_start` needs from the configuration and from `run_task`. */
  datatype GateSetup = GateSetup(mode: StartMode, triggerChar: string, escapeCancels: bool, hasHandler: bool)

  /** One iteration's input: the event batch, and the items the reader thread queued before the queue check. */
  datatype Poll = Poll(events: seq<Event>, arrived: seq<bool>)

  /** The decision one event, or one batch, brings. */
  datatype Decision = Go(signal: StartSignal) | Stop | Continue

  /**
    `Started` and `Aborted` are the source's `True` and `False`, with the
    number of polls consumed; `Waiting` says the input ended while the gate
    was still waiting, which the source would do indefinitely.
   */
  datatype GateResult = Started(signal: StartSignal, polls: nat) | Aborted(polls: nat) | Waiting(queue: seq<bool>)

  predicate SpaceAllowed(mode: StartMode)
  {
    mode == Manual || mode == Both
  }

  predicate TriggerAllowed(mode: StartMode)
  {
    mode == Trigger || mode == Both
  }

  /** The typed text of a key press equals the trigger character, ignoring case. */
  predicate IsTriggerChar(g: GateSetup, unicode: string)
  {
    unicode != [] && Lower(unicode) == Lower(g.triggerChar)
  }

  /**
    One event, checked in the source's order: QUIT aborts; a key press
    starts on SPACE (manual or both mode), then on the trigger character
    (trigger or both mode), and only then aborts on ESC when escape cancels.
   */
  function EventDecision(g: GateSetup, e: Event): (d: Decision)
    ensures d == Stop <==> e.Quit? || (e.KeyDown? && g.escapeCancels && e.key == Escape
                                        && !(SpaceAllowed(g.mode) && e.key == Space)
                                        && !(TriggerAllowed(g.mode) && IsTriggerChar(g, e.unicode)))
    ensures d == Go(SpaceBar) <==> e.KeyDown? && e.key == Space && SpaceAllowed(g.mode)
    ensures d == Go(TriggerKey) <==>
      e.KeyDown? && TriggerAllowed(g.mode) && IsTriggerChar(g, e.unicode) && !(e.key == Space && SpaceAllowed(g.mode))
    ensures d != Go(QueuedTrigger)
  {
    match e
    case Quit => Stop
    case KeyDown(key, unicode) =>
      if key == Space && SpaceAllowed(g.mode) then Go(SpaceBar)
      else if TriggerAllowed(g.mode) && IsTriggerChar(g, unicode) then Go(TriggerKey)
      else if g.escapeCancels && key == Escape then Stop
      else Continue
    case OtherEvent => Continue
  }

  /** The first decisive event of a batch wins; a batch with none decides nothing. */
  function BatchDecision(g: GateSetup, batch: seq<Event>): (d: Decision)
    ensures d == Continue <==> forall i :: 0 <= i < |batch| ==> EventDecision(g, batch[i]) == Continue
    ensures d != Continue ==> exists i :: 0 <= i < |batch| && d == EventDecision(g, batch[i])
                                         && (forall k :: 0 <= k < i ==> EventDecision(g, batch[k]) == Continue)
  {
    if batch == [] then Continue
    else
      var d := EventDecision(g, batch[0]);
      if d != Continue then d
      else
        var rest := BatchDecision(g, batch[1..]);
        assert forall i :: 1 <= i < |batch| ==> batch[1..][i - 1] == batch[i];
        rest
  }

  /**
    What `wait_for_start` promises about a result: every poll before the
    deciding one held no decisive event; an abort follows a batch whose first
    decisive event stops the gate; a start follows either the batch's first
    decisive event, of a signal the mode allows, or (trigger or both mode,
    with a handler) a queued trigger after a batch that decided nothing.
    `QueueContract` adds what the gate does with the trigger queue.
   */
  ghost predicate GateContract(g: GateSetup, polls: seq<Poll>, queue: seq<bool>, r: GateResult)
  {
    DecisionContract(g, polls, r) && QueueContract(g, polls, queue, r)
  }

  /** The events' part of the contract: which batch decided, and how. */
  ghost predicate DecisionContract(g: GateSetup, polls: seq<Poll>, r: GateResult)
  {
    && (r.Started? || r.Aborted? ==>
          && 1 <= r.polls <= |polls|
          && (forall i :: 0 <= i < r.polls - 1 ==> BatchDecision(g, polls[i].events) == Continue)
          && (r.Aborted? ==> BatchDecision(g, polls[r.polls - 1].events) == Stop)
          && (r.Started? && r.signal != QueuedTrigger ==> BatchDecision(g, polls[r.polls - 1].events) == Go(r.signal))
          && (r.Started? && r.signal == QueuedTrigger ==>
                BatchDecision(g, polls[r.polls - 1].events) == Continue && TriggerAllowed(g.mode) && g.hasHandler))
    && (r.Started? && r.signal == SpaceBar ==> SpaceAllowed(g.mode))
    && (r.Started? && r.signal == TriggerKey ==> TriggerAllowed(g.mode))
    && (r.Waiting? ==> forall i :: 0 <= i < |polls| ==> BatchDecision(g, polls[i].events) == Continue)
  }

  /**
    The trigger queue's part of the contract, for a gate that started with
    `queue` pending:
    - a start by queued trigger needs an item queued before or during its poll;
    - when the gate checks the queue, every poll before the deciding one found
      it empty, so nothing was queued before then;
    - a gate still waiting that checks the queue has found nothing queued at
      all and holds an empty queue; one that never checks it keeps every item;
    - with no poll at all the queue is left as it was.
   */
  ghost predicate QueueContract(g: GateSetup, polls: seq<Poll>, queue: seq<bool>, r: GateResult)
  {
    && (r.Started? && r.signal == QueuedTrigger && r.polls <= |polls| ==>
          |queue| + Arrivals(polls[..r.polls]) > 0)
    && ((r.Started? || r.Aborted?) && TriggerAllowed(g.mode) && g.hasHandler && 1 < r.polls <= |polls| ==>
          |queue| + Arrivals(polls[..r.polls - 1]) == 0)
    && (r.Waiting? && TriggerAllowed(g.mode) && g.hasHandler && polls != [] ==>
          |queue| + Arrivals(polls) == 0 && r.queue == [])
    && (r.Waiting? && !(TriggerAllowed(g.mode) && g.hasHandler) ==> |r.queue| == |queue| + Arrivals(polls))
    && (r.Waiting? && polls == [] ==> r.queue == queue)
  }

  /** A result one poll later: the polls consumed before it are counted in. */
  function Later(r: GateResult): GateResult
  {
    match r
    case Started(signal, n) => Started(signal, n + 1)
    case Aborted(n) => Aborted(n + 1)
    case Waiting(q) => Waiting(q)
  }

  /**
    `wait_for_start` from its loop on. Batches are decided in order and the
    first decisive event wins; a batch that decides nothing lets the gate
    check the trigger queue, which it does only in trigger or both mode
    with a handler present, draining at most one item per iteration.
   */
  function AwaitStart(g: GateSetup, polls: seq<Poll>, queue: seq<bool>): GateResult
    decreases |polls|
  {
    if polls == [] then Waiting(queue)
    else
      match BatchDecision(g, polls[0].events)
      case Go(signal) => Started(signal, 1)
      case Stop => Aborted(1)
      case Continue =>
        var pending := queue + polls[0].arrived;
        var (triggered, left) :=
          if TriggerAllowed(g.mode) && g.hasHandler then TriggerQueue.CheckTrigger(pending) else (false, pending);
        if triggered then Started(QueuedTrigger, 1)
        else
          var rest := AwaitStart(g, polls[1..], left);
          Later(rest)
  }

  /** Every result of the gate keeps the gate's contract. */
  lemma AwaitStartMeetsContract(g: GateSetup, polls: seq<Poll>, queue: seq<bool>)
    ensures GateContract(g, polls, queue, AwaitStart(g, polls, queue))
  {
    AwaitStartDecides(g, polls, queue);
    AwaitStartQueue(g, polls, queue);
  }

  /** The decision part of the contract. */
  lemma {:induction false} AwaitStartDecides(g: GateSetup, polls: seq<Poll>, queue: seq<bool>)
    ensures DecisionContract(g, polls, AwaitStart(g, polls, queue))
    decreases |polls|
  {
    if polls != [] && BatchDecision(g, polls[0].events) == Continue {
      var pending := queue + polls[0].arrived;
      if !(TriggerAllowed(g.mode) && g.hasHandler && |pending| > 0) {
        AwaitStartDecides(g, polls[1..], pending);
        assert AwaitStart(g, polls, queue) == Later(AwaitStart(g, polls[1..], pending));
        LaterKeepsDecisions(g, polls, AwaitStart(g, polls[1..], pending));
      }
    }
  }

  /** The decision contract carries over to a result one poll later when the first batch decided nothing. */
  lemma LaterKeepsDecisions(g: GateSetup, polls: seq<Poll>, rest: GateResult)
    requires polls != [] && BatchDecision(g, polls[0].events) == Continue
    requires DecisionContract(g, polls[1..], rest)
    ensures DecisionContract(g, polls, Later(rest))
  {
    assert forall i :: 1 <= i < |polls| ==> polls[1..][i - 1] == polls[i];
  }

  /** The queue part of the contract. */
  lemma {:induction false} AwaitStartQueue(g: GateSetup, polls: seq<Poll>, queue: seq<bool>)
    ensures QueueContract(g, polls, queue, AwaitStart(g, polls, queue))
    decreases |polls|
  {
    if polls != [] && BatchDecision(g, polls[0].events) == Continue {
      var pending := queue + polls[0].arrived;
      if !(TriggerAllowed(g.mode) && g.hasHandler) {
        AwaitStartQueue(g, polls[1..], pending);
        UncheckedStep(g, polls, queue);
      } else if |pending| == 0 {
        assert queue == [] && polls[0].arrived == [];
        AwaitStartQueue(g, polls[1..], []);
        EmptyCheckStep(g, polls);
      } else {
        ArrivalsPrefix(polls, 1);
      }
    }
  }

  /** A poll that decided nothing and did not check the queue passes every item on. */
  lemma UncheckedStep(g: GateSetup, polls: seq<Poll>, queue: seq<bool>)
    requires polls != [] && BatchDecision(g, polls[0].events) == Continue
    requires !(TriggerAllowed(g.mode) && g.hasHandler)
    requires QueueContract(g, polls[1..], queue + polls[0].arrived, AwaitStart(g, polls[1..], queue + polls[0].arrived))
    ensures QueueContract(g, polls, queue, AwaitStart(g, polls, queue))
  {
    var rest := AwaitStart(g, polls[1..], queue + polls[0].arrived);
    assert AwaitStart(g, polls, queue) == Later(rest);
    if rest.Started? && rest.polls <= |polls| - 1 {
      ArrivalsPrefix(polls, rest.polls + 1);
    }
  }

  /** A poll that decided nothing and found the queue empty, with nothing queued, leaves it empty. */
  lemma EmptyCheckStep(g: GateSetup, polls: seq<Poll>)
    requires polls != [] && BatchDecision(g, polls[0].events) == Continue
    requires TriggerAllowed(g.mode) && g.hasHandler && polls[0].arrived == []
    requires QueueContract(g, polls[1..], [], AwaitStart(g, polls[1..], []))
    ensures QueueContract(g, polls, [], AwaitStart(g, polls, []))
  {
    var rest := AwaitStart(g, polls[1..], []);
    assert [] + polls[0].arrived == [];
    assert AwaitStart(g, polls, []) == Later(rest);
    LaterKeepsEmpty(g, polls, rest);
  }

  /** The queue contract carries over to a result one poll later when the first poll queued nothing. */
  lemma LaterKeepsEmpty(g: GateSetup, polls: seq<Poll>, rest: GateResult)
    requires polls != [] && polls[0].arrived == []
    requires TriggerAllowed(g.mode) && g.hasHandler
    requires QueueContract(g, polls[1..], [], rest)
    requires rest.Waiting? && polls[1..] == [] ==> rest.queue == []
    ensures QueueContract(g, polls, [], Later(rest))
  {
    assert Arrivals(polls) == Arrivals(polls[1..]);
    match rest
    case Waiting(q) =>
    case Started(_, n) =>
      EmptyPrefix(polls, n);
    case Aborted(n) =>
      EmptyPrefix(polls, n);
  }

  /** With nothing queued at the first poll, the arrivals up to poll `n + 1` are those of the later polls up to `n`. */
  lemma EmptyPrefix(polls: seq<Poll>, n: nat)
    requires polls != [] && polls[0].arrived == []
    ensures n + 1 <= |polls| ==> Arrivals(polls[..n + 1]) == Arrivals(polls[1..][..n])
    ensures 1 <= n <= |polls| ==> Arrivals(polls[..n]) == Arrivals(polls[1..][..n - 1])
  {
    if n + 1 <= |polls| {
      ArrivalsPrefix(polls, n + 1);
    }
    if 1 <= n <= |polls| {
      ArrivalsPrefix(polls, n);
    }
  }

  /** Total items the reader thread queued during the given polls. */
  function Arrivals(polls: seq<Poll>): nat
  {
    if polls == [] then 0 else |polls[0].arrived| + Arrivals(polls[1..])
  }

  /** Arrivals over a prefix split off the first poll. */
  lemma ArrivalsPrefix(polls: seq<Poll>, k: nat)
    requires 1 <= k <= |polls|
    ensures Arrivals(polls[..k]) == |polls[0].arrived| + Arrivals(polls[1..][..k - 1])
  {
    assert polls[..k][1..] == polls[1..][..k - 1];
  }

  /**
    In manual mode nothing from the trigger path matters: the outcome is the
    same whatever was queued before or during the wait, and the gate never
    starts on a trigger.
   */
  lemma {:induction false} ManualIgnoresTriggers(g: GateSetup, polls: seq<Poll>, polls': seq<Poll>,
                                                 queue: seq<bool>, queue': seq<bool>)
    requires g.mode == Manual
    requires |polls| == |polls'|
    requires forall i :: 0 <= i < |polls| ==> polls[i].events == polls'[i].events
    ensures AwaitStart(g, polls, queue).Waiting? <==> AwaitStart(g, polls', queue').Waiting?
    ensures !AwaitStart(g, polls, queue).Waiting? ==> AwaitStart(g, polls, queue) == AwaitStart(g, polls', queue')
    ensures AwaitStart(g, polls, queue).Started? ==> AwaitStart(g, polls, queue).signal == SpaceBar
    decreases |polls|
  {
    if polls != [] {
      assert polls[0].events == polls'[0].events;
      assert forall i :: 0 <= i < |polls| - 1 ==> polls[1..][i].events == polls'[1..][i].events;
      var q, q' := queue + polls[0].arrived, queue' + polls'[0].arrived;
      ManualIgnoresTriggers(g, polls[1..], polls'[1..], q, q');
      if BatchDecision(g, polls[0].events) == Continue {
        assert AwaitStart(g, polls, queue) == Later(AwaitStart(g, polls[1..], q));
        assert AwaitStart(g, polls', queue') == Later(AwaitStart(g, polls'[1..], q'));
      }
    }
  }

  /** In manual mode the queue is never drained: every item the reader thread put is still there. */
  lemma {:induction false} ManualKeepsQueue(g: GateSetup, polls: seq<Poll>, queue: seq<bool>)
    requires g.mode == Manual
    ensures AwaitStart(g, polls, queue).Waiting? ==> |AwaitStart(g, polls, queue).queue| == |queue| + Arrivals(polls)
    decreases |polls|
  {
    if polls != [] {
      ManualKeepsQueue(g, polls[1..], queue + polls[0].arrived);
    }
  }

  /**
    A QUIT before any decisive event aborts, provided no queued trigger
    started the gate first: when the gate checks the queue, nothing may have
    been queued before the QUIT's poll.
   */
  lemma {:induction false} QuitAborts(g: GateSetup, polls: seq<Poll>, queue: seq<bool>, k: nat, i: nat)
    requires k < |polls| && i < |polls[k].events| && polls[k].events[i] == Quit
    requires forall j :: 0 <= j < i ==> EventDecision(g, polls[k].events[j]) == Continue
    requires forall j :: 0 <= j < k ==> BatchDecision(g, polls[j].events) == Continue
    requires TriggerAllowed(g.mode) && g.hasHandler ==> |queue| + Arrivals(polls[..k]) == 0
    ensures AwaitStart(g, polls, queue) == Aborted(k + 1)
    decreases k
  {
    if k == 0 {
      QuitDecidesBatch(g, polls[0].events, i);
    } else {
      assert BatchDecision(g, polls[0].events) == Continue;
      ArrivalsPrefix(polls, k);
      QuitAborts(g, polls[1..], queue + polls[0].arrived, k - 1, i);
    }
  }

  lemma {:induction false} QuitDecidesBatch(g: GateSetup, batch: seq<Event>, i: nat)
    requires i < |batch| && batch[i] == Quit
    requires forall j :: 0 <= j < i ==> EventDecision(g, batch[j]) == Continue
    ensures BatchDecision(g, batch) == Stop
    decreases i
  {
    if i > 0 {
      QuitDecidesBatch(g, batch[1..], i - 1);
    }
  }

  /**
    With nothing decisive among the events, in trigger or both mode with a
    handler present, the first poll whose queue check finds an item starts
    the session: the queued trigger is honoured one poll after it arrived
    at the latest.
   */
  lemma QueuedTriggerStarts(g: GateSetup, p: Poll, rest: seq<Poll>, queue: seq<bool>)
    requires TriggerAllowed(g.mode) && g.hasHandler
    requires BatchDecision(g, p.events) == Continue
    requires |queue| + |p.arrived| > 0
    ensures AwaitStart(g, [p] + rest, queue) == Started(QueuedTrigger, 1)
  {
  }
}

=== FILE: static_phase.dfy ===
/**
  The static phase loop shared by `show_fixation` and `show_instruction_image`
  (mvast_fmri_task.py:464-511): once the image is on screen, read the clock
  for the start time, then poll until a reading reaches `start + duration`,
  returning `False` on QUIT or (when escape cancels) ESC.

  Clock readings are consumed in call order: `clock[0]` is the start time and
  `clock[k + 1]` is the loop test before the `k`-th event batch.
 */
module StaticPhase {
  import opened Events

  /** A verdict and the number of event batches the loop consumed. */
  datatype PhaseRun = PhaseRun(verdict: Verdict, polls: nat)

  /** The first `k` iterations ran: each test read a time before `end` and its batch held no cancel. */
  ghost predicate Ran(end: int, clock: seq<int>, batches: seq<seq<Event>>, escapeCancels: bool, k: nat)
  {
    && k < |clock|
    && k <= |batches|
    && (forall j :: 1 <= j <= k ==> clock[j] < end)
    && (forall i :: 0 <= i < k ==> !BatchCancels(batches[i], escapeCancels))
  }

  /** The polling loop from iteration `k` on, every earlier iteration having run. */
  function Loop(end: int, clock: seq<int>, batches: seq<seq<Event>>, escapeCancels: bool, k: nat): (r: PhaseRun)
    requires Ran(end, clock, batches, escapeCancels, k)
    ensures k <= r.polls <= |batches|
    ensures r.verdict == Cancelled ==> r.polls > k
    ensures r.polls < |clock| && forall j :: 1 <= j <= r.polls ==> clock[j] < end
    ensures forall i :: 0 <= i < r.polls ==>
      (BatchCancels(batches[i], escapeCancels) <==> r.verdict == Cancelled && i == r.polls - 1)
    ensures r.verdict == Completed ==> r.polls + 1 < |clock| && clock[r.polls + 1] >= end
    ensures r.verdict == Pending ==>
      |clock| <= r.polls + 1 || (r.polls == |batches| && clock[r.polls + 1] < end)
    decreases |clock| - k
  {
    if k + 1 >= |clock| then PhaseRun(Pending, k)
    else if clock[k + 1] >= end then PhaseRun(Completed, k)
    else if k >= |batches| then PhaseRun(Pending, k)
    else if BatchCancels(batches[k], escapeCancels) then PhaseRun(Cancelled, k + 1)
    else Loop(end, clock, batches, escapeCancels, k + 1)
  }

  /**
    A static phase of `duration` ticks. It completes exactly when a loop test
    reads a time at or past `start + duration` before any batch cancelled; it
    is cancelled by the first batch holding QUIT or a cancelling ESC, and is
    never extended past the first reading at or after the end time.
   */
  function RunStatic(duration: int, clock: seq<int>, batches: seq<seq<Event>>, escapeCancels: bool): (r: PhaseRun)
    ensures r.polls <= |batches|
    ensures r.verdict == Cancelled ==> r.polls > 0
    ensures r.polls > 0 ==> r.polls < |clock| && forall j :: 1 <= j <= r.polls ==> clock[j] < clock[0] + duration
    ensures forall i :: 0 <= i < r.polls ==>
      (BatchCancels(batches[i], escapeCancels) <==> r.verdict == Cancelled && i == r.polls - 1)
    ensures r.verdict == Completed ==> r.polls + 1 < |clock| && clock[r.polls + 1] >= clock[0] + duration
    ensures r.verdict == Pending ==>
      |clock| <= r.polls + 1 || (r.polls == |batches| && clock[r.polls + 1] < clock[0] + duration)
  {
    if |clock| == 0 then PhaseRun(Pending, 0)
    else Loop(clock[0] + duration, clock, batches, escapeCancels, 0)
  }

  lemma {:induction false} LoopPrefixStable(end: int, clock: seq<int>, batches: seq<seq<Event>>, escapeCancels: bool,
                                            k: nat, moreClock: seq<int>, moreBatches: seq<seq<Event>>)
    requires Ran(end, clock, batches, escapeCancels, k)
    requires Loop(end, clock, batches, escapeCancels, k).verdict != Pending
    ensures Ran(end, clock + moreClock, batches + moreBatches, escapeCancels, k)
    ensures Loop(end, clock + moreClock, batches + moreBatches, escapeCancels, k)
         == Loop(end, clock, batches, escapeCancels, k)
    decreases |clock| - k
  {
    var c, b := clock + moreClock, batches + moreBatches;
    assert forall i :: 0 <= i < |clock| ==> c[i] == clock[i];
    assert forall i :: 0 <= i < |batches| ==> b[i] == batches[i];
    if clock[k + 1] < end && !BatchCancels(batches[k], escapeCancels) {
      LoopPrefixStable(end, clock, batches, escapeCancels, k + 1, moreClock, moreBatches);
    }
  }

  /**
    The loop is causal: once a phase has returned, readings and events
    supplied after the ones it consumed cannot change its verdict.
   */
  lemma PrefixStable(duration: int, clock: seq<int>, batches: seq<seq<Event>>, escapeCancels: bool,
                     moreClock: seq<int>, moreBatches: seq<seq<Event>>)
    requires RunStatic(duration, clock, batches, escapeCancels).verdict != Pending
    ensures RunStatic(duration, clock + moreClock, batches + moreBatches, escapeCancels)
         == RunStatic(duration, clock, batches, escapeCancels)
  {
    assert (clock + moreClock)[0] == clock[0];
    LoopPrefixStable(clock[0] + duration, clock, batches, escapeCancels, 0, moreClock, moreBatches);
  }

  lemma {:induction false} LoopCompletes(end: int, clock: seq<int>, batches: seq<seq<Event>>, escapeCancels: bool,
                                         k: nat, j: nat)
    requires Ran(end, clock, batches, escapeCancels, k)
    requires k < j < |clock| && clock[j] >= end && j <= |batches| + 1
    requires forall i :: k <= i < j - 1 ==> !BatchCancels(batches[i], escapeCancels)
    ensures Loop(end, clock, batches, escapeCancels, k).verdict == Completed
    decreases j - k
  {
    if clock[k + 1] < end {
      LoopCompletes(end, clock, batches, escapeCancels, k + 1, j);
    }
  }

  /**
    A phase completes whenever some loop test reads a time at or past its
    end before any batch cancels it: the loop cannot miss its end time, and
    only a cancelling event stops it early.
   */
  lemma CompletesOnTime(duration: int, clock: seq<int>, batches: seq<seq<Event>>, escapeCancels: bool, j: nat)
    requires 0 < j < |clock| && clock[j] >= clock[0] + duration && j <= |batches| + 1
    requires forall i :: 0 <= i < j - 1 ==> !BatchCancels(batches[i], escapeCancels)
    ensures RunStatic(duration, clock, batches, escapeCancels).verdict == Completed
    ensures RunStatic(duration, clock, batches, escapeCancels).polls < j
  {
    LoopCompletes(clock[0] + duration, clock, batches, escapeCancels, 0, j);
  }
}

=== FILE: trigger_queue.dfy ===
/**
  The queue between the trigger reader thread and the start gate.

  The reader thread (serial port or keyboard simulation) only ever puts
  `True` into the queue; the gate drains it without blocking. The thread
  itself is not modelled: a queue is a sequence, oldest item first.
 */
module TriggerQueue {

  /**
    `TriggerInputHandler.check_trigger`: a non-blocking `get`. It reports
    whether an item was pending and removes exactly that one item.
   */
  function CheckTrigger<T>(queue: seq<T>): (r: (bool, seq<T>))
    ensures r.0 <==> |queue| > 0
    ensures r.0 ==> |r.1| == |queue| - 1 && queue == [queue[0]] + r.1
    ensures !r.0 ==> r.1 == queue
  {
    if |queue| == 0 then (false, queue) else (true, queue[1..])
  }

  /** What the reader thread does: append an item at the back. */
  function Put<T>(queue: seq<T>, item: T): (r: seq<T>)
    ensures |r| == |queue| + 1 && r[|queue|] == item && r[..|queue|] == queue
  {
    queue + [item]
  }

  /** Calls `check_trigger` `n` times; counts the successful ones. */
  function Drain<T>(queue: seq<T>, n: nat): (r: (nat, seq<T>))
  {
    if n == 0 then (0, queue)
    else
      var (hit, rest) := CheckTrigger(queue);
      var (hits, left) := Drain(rest, n - 1);
      (if hit then hits + 1 else hits, left)
  }

  /**
    Triggers are indistinguishable and each is consumed once: `n` checks
    succeed exactly `min(n, |queue|)` times and leave the oldest items removed.
   */
  lemma {:induction false} DrainCounts<T>(queue: seq<T>, n: nat)
    ensures Drain(queue, n).0 == if n <= |queue| then n else |queue|
    ensures Drain(queue, n).1 == queue[if n <= |queue| then n else |queue|..]
    decreases n
  {
    if n > 0 {
      DrainCounts(CheckTrigger(queue).1, n - 1);
      if |queue| > 0 {
        assert queue[1..][if n - 1 <= |queue| - 1 then n - 1 else |queue| - 1..]
            == queue[if n <= |queue| then n else |queue|..];
      }
    }
  }

  /** The queue is first-in first-out: a put item waits behind every older one. */
  lemma PutThenCheck<T>(queue: seq<T>, item: T)
    ensures CheckTrigger(Put(queue, item)) == (true, if |queue| == 0 then [] else Put(queue[1..], item))
  {
    if |queue| > 0 {
      assert Put(queue, item)[1..] == Put(queue[1..], item);
    }
  }
}
